=== FILE: README.md ===
# Arch Wiki automated submission: a verified model of the client core

`scripts/archwiki_automated_submission.py` submits a page to the Arch Wiki through
the MediaWiki Action API. It runs `curl` once per request and makes a four-step
handshake: it gets a login token, logs in, gets a CSRF token, and submits the edit.
Each step runs under a retry wrapper with exponential backoff, and the cookie jar
is removed when the run ends. This project models the decision logic of that
client in Dafny and proves what it promises.

The project has five modules.

- `Wrappers`: `Option` and `Result`. A Python exception becomes `Err(msg)`, where
  `msg` is its `str(e)`.
- `Text`: the string operations the wrapper relies on. These are `str.lower()`
  (`Lower`), substring search (`Contains`) and decimal rendering (`DecimalString`).
- `Retry`: `exponential_backoff`.
  - The wrapped function is `attempt: nat -> Result<T>`, the outcome of its k-th call.
  - The method `ExponentialBackoff` keeps the source's `while` loop, retry counter
    and doubling delay. Instead of sleeping, it records each delay.
  - It is proved equal to the recursive definition `Backoff`. The call bound, the
    pass-through, the backoff schedule, the early exit and the final wrapping are
    lemmas about `Backoff`.
- `Curl`: the argument vector of `run_curl_command` and its two failure messages.
  - `BuildCurlCommand` keeps the `for` loop that extends `cmd`. It is proved equal
    to `CurlArgv`.
  - The shape of `CurlArgv` is a set of lemmas. These cover the prefix, the cookie
    flags, one flag/value pair per parameter in map order, the suffix and the length.
  - A parameter map is an ordered list of pairs, because a Python dict keeps
    insertion order. `Put` models `params[key] = value`.
- `MediaWiki`: the replies the client reads, with only the keys it reads, each
  optional. It also holds the checks of `get_login_token`, `login`, `get_csrf_token`
  and `submit_wiki_page`: `TokenOf`, `LoginOutcome` and `EditOutcome`.
- `Submission`: the edit request and `submit_content`.
  - The wiki is a `Network`. Given the number of a curl call in the run and the
    request it carries, it returns what curl produced: a failure, output that is
    not JSON, or a decoded response.
  - `Handshake` defines the run as a `Transcript`. This records the requests made,
    the delays slept, the last stage reached, and whether the run returned or raised.
  - The method `SubmitContent` performs the four steps in sequence with the
    `finally` cleanup. It is proved to produce `Handshake(..., MaxRetries)` and to
    leave no cookie jar.
  - The handshake lemmas hold for every retry budget `retries >= 1`. The script
    uses the default budget of 5.

Two behaviours of the script are modelled as written and proved as lemmas.

- The message raised for edit error `maxlag` is "Wiki is currently lagging. Please
  try again later." It contains none of the keywords `maxlag`, `timeout` and
  `network`, so a lagging wiki is not retried (`Submission.MaxlagEditNotRetried`).
- A curl failure with empty error output raises "Curl command failed: ", which is
  not transient either (`Submission.SilentCurlFailureNotTransient`).

Two more facts about the code are stated as lemmas.

- A failure on the last allowed attempt is always wrapped as "Failed after N
  attempts: ...", whether it is transient or not (`Retry.BackoffRaises`).
- Every retried login resends the login token obtained in step 1; no fresh token is
  fetched (`Submission.HandshakeTokenFlow`).

## Model

| member | source | states |
|---|---|---|
| Retry.ExponentialBackoff | scripts/archwiki_automated_submission.py:159-184 | The loop (retry counter, delay doubling from 1, return on success, re-raise, final wrap, `None` after the loop) computes exactly the run `Backoff` defines. |
| Retry.BackoffCallBound | scripts/archwiki_automated_submission.py:161-166 | With `max_retries <= 0`, nothing is called and `None` is returned. Otherwise the wrapped function is called between 1 and `max_retries` times, and `None` is never returned. |
| Retry.BackoffReturnsFirstSuccess | scripts/archwiki_automated_submission.py:164-166 | A returned value is exactly the value of the last call, and every earlier call failed, so it is the first success's value, unchanged. |
| Retry.BackoffSchedule | scripts/archwiki_automated_submission.py:162-175 | The k-th delay (from 0) is 2^k. There are at most `max_retries - 1` delays, one fewer than the calls. Each follows a failed attempt whose message was classified transient. |
| Retry.BackoffRaises | scripts/archwiki_automated_submission.py:167-182 | A raise follows a failed last call. On the last allowed attempt the message is wrapped as "Failed after N attempts: msg". Before that, it is a non-transient message re-raised unchanged. |
| Retry.BackoffRecovers | scripts/archwiki_automated_submission.py:164-176 | After k transient failures, a success on call k+1 is returned after k+1 calls and the delays 1, 2, ..., 2^(k-1). |
| Retry.BackoffStopsOnPermanentFailure | scripts/archwiki_automated_submission.py:168-179 | After k transient failures, a non-final non-transient failure is raised unchanged, with no further call or delay. |
| Retry.BackoffExhausted | scripts/archwiki_automated_submission.py:168-182 | When every attempt fails, transiently until the last, the last message is raised wrapped after `max_retries` calls and `max_retries - 1` delays. |
| Retry.DecidedAt | scripts/archwiki_automated_submission.py:164-182 | After k transient failures, a success, a non-transient failure or the last allowed attempt ends the run at call k+1. |
| Retry.AttemptsShape | scripts/archwiki_automated_submission.py:164-182 | From any point of the loop, the run has between 1 and the remaining number of calls, with delays doubling from the current delay. Every call but the last failed transiently, and the last call decides the outcome. |
| Retry.AttemptsCount | scripts/archwiki_automated_submission.py:164-176 | From retry count i, the run makes 1 to n - i calls and one fewer sleep, and the j-th sleep is the current delay times 2^j. |
| Retry.AttemptsRetriedOnlyTransient | scripts/archwiki_automated_submission.py:169-176 | Every call of the run before its last failed with a transient message. |
| Retry.AttemptsLast | scripts/archwiki_automated_submission.py:166-182 | The last call decides the outcome: its value, its message unchanged (non-transient, not final), or its message wrapped (final). |
| Retry.TransientIgnoresCase | scripts/archwiki_automated_submission.py:170-172 | Classifying a message as transient does not depend on letter case: lower-casing first changes nothing. |
| Retry.KeywordMakesTransient | scripts/archwiki_automated_submission.py:170-172 | A keyword written in any case, anywhere in a message, makes it transient. |
| Retry.LacksKeywordLetters | scripts/archwiki_automated_submission.py:170-172 | A message is not transient if it lacks 'x' in both cases and also lacks one of 't', 'o', 'e' in both cases. |
| Text.DecimalString | scripts/archwiki_automated_submission.py:182 | `str(max_retries)` in the wrapped message: at least one decimal digit, no leading zero, and the digits read back (`DecimalValue`) as exactly the number rendered. |
| Curl.BuildCurlCommand | scripts/archwiki_automated_submission.py:39-59 | The loop that extends `cmd` produces exactly `CurlArgv(method, initial_cookies, params)`. |
| Curl.CurlArgvShape | scripts/archwiki_automated_submission.py:39-59 | The argv starts with `curl -s -X <method> <URL>`. Then come `-c <jar>` on the first request, or `-b <jar> -c <jar>` otherwise. Then each parameter i contributes its flag and `key=value` at positions 2i, 2i+1 in map order, with `--data-urlencode` exactly for `text`/`summary`. It ends with the user agent and the 30 s / 120 s timeouts. Its length is 5 + (2 or 4) + 2 × (number of parameters) + 6. |
| Curl.CurlArgvParam | scripts/archwiki_automated_submission.py:49-53 | Parameter i stands at positions 5 + c + 2i and 5 + c + 2i + 1, with its flag and `key=value`. |
| Curl.DataArgsAt | scripts/archwiki_automated_submission.py:49-53 | The data arguments are two per parameter, in map order: flag, then `key=value`. |
| Curl.LookupIsSent | scripts/archwiki_automated_submission.py:49-53 | Every entry of the parameter map appears on the command line as its flag followed by `key=value`. |
| Curl.CurlResultCases | scripts/archwiki_automated_submission.py:64-73 | A decoded response passes through unchanged, if and only if curl produced one. A failed process raises "Curl command failed: " followed by its error output. Undecodable output raises "Failed to decode JSON response from API.", and no curl failure raises that same message. |
| Curl.LookupDistinct | scripts/archwiki_automated_submission.py:49 | In a map with distinct keys, each key finds its own value and an absent key finds nothing. |
| Curl.Put | scripts/archwiki_automated_submission.py:135-136 | `params[key] = value`: afterwards the key maps to the value, every other key is unchanged, and a new key is appended last. |
| MediaWiki.TokenOf | scripts/archwiki_automated_submission.py:83-86 | A token is returned only if it is present at `query.tokens.<kind>` and non-empty. Otherwise "Could not retrieve ... token." is raised, and any token present is empty. |
| MediaWiki.LoginOutcome | scripts/archwiki_automated_submission.py:100-104 | Login succeeds if and only if `login.result` is "Success". A failure's message is "Login failed: " with `login.reason`, or "Unknown reason" when there is none. |
| MediaWiki.EditOutcome | scripts/archwiki_automated_submission.py:139-155 | An edit succeeds if and only if `edit.result` is "Success". A failure raises the message of the category of `error.code` (default "N/A") and `error.info` (default "Unknown error"). |
| MediaWiki.EditFailureCategories | scripts/archwiki_automated_submission.py:145-155 | Each of `badtoken`, `maxlag`, `spamdetected` and `abusefilter` gives its own fixed message, if and only if it is the code. Any other code gives "Edit failed: code - info". |
| MediaWiki.FailureMessageIdentifiesCategory | scripts/archwiki_automated_submission.py:146-155 | Two failures with the same message are the same named category, or both generic. |
| Submission.CallParams | scripts/archwiki_automated_submission.py:79-115 | Every request's parameters have distinct keys and `format=json`. `action` is `query` for the two token queries, `login` for the login and `edit` for the edit. |
| Submission.TokenQueryParams | scripts/archwiki_automated_submission.py:110-115 | A token query's keys are exactly `action, meta, type, format`, in that order, with `action=query`, `meta=tokens`, `type` set to the token type and `format=json`. |
| Submission.LoginParams | scripts/archwiki_automated_submission.py:93-99 | A login's keys are exactly `action, lgname, lgpassword, lgtoken, format`, in that order, with `action=login`, the bot's name and password, the login token and `format=json`. |
| Submission.LoginRequestSent | scripts/archwiki_automated_submission.py:93-99 | The login's command line carries `-d action=login`, `-d lgname=<username>`, `-d lgpassword=<password>` and `-d lgtoken=<login token>`. |
| Submission.TokenQueryCookies | scripts/archwiki_automated_submission.py:39-46 | A token query's command line starts with `curl -s -X POST <URL>`. For the login token it then has `-c <jar>` only, because that request runs with `initial_cookies=True`. For the CSRF token it has `-b <jar> -c <jar>`. |
| Submission.TokenTypeSent | scripts/archwiki_automated_submission.py:79-82 | A token query's command line carries `-d type=login` or `-d type=csrf`, according to its kind. |
| Submission.EditParams | scripts/archwiki_automated_submission.py:127-136 | The edit's keys are exactly `action, title, text, summary, token, format`, plus `bot` last only for a bot edit. `action=edit`, `format=json`, `bot=1`, and the other keys carry the given values. |
| Submission.EditFieldsLookup | scripts/archwiki_automated_submission.py:127-134 | The fixed edit fields map to the edit action, the title, content, summary, token and JSON format, with no `bot`. |
| Submission.EditTitleSent | scripts/archwiki_automated_submission.py:129 | The edit's command line carries `-d title=<title>`. |
| Submission.EditTextSent | scripts/archwiki_automated_submission.py:130 | The edit's command line carries `--data-urlencode text=<content>`. |
| Submission.EditSummarySent | scripts/archwiki_automated_submission.py:131 | The edit's command line carries `--data-urlencode summary=<summary>`. |
| Submission.EditTokenSent | scripts/archwiki_automated_submission.py:132 | The edit's command line carries `-d token=<csrf token>`. |
| Submission.BotFlagSent | scripts/archwiki_automated_submission.py:135-136 | A bot edit's command line carries `-d bot=1`. |
| Submission.SubmitContent | scripts/archwiki_automated_submission.py:186-222 | The four steps, each under the retry wrapper with budget 5, produce exactly the run `Handshake(bot, page, net, 5)`. The cookie jar does not exist afterwards, on success and on failure. |
| Submission.HandshakeBlocks | scripts/archwiki_automated_submission.py:195-211 | Every run consists of blocks of at most `retries` login-token queries, logins, CSRF-token queries and edits, in that order. A block is present exactly when the step before it returned. A failing run raises the last call's error, unchanged or wrapped. |
| Submission.HandshakeOrder | scripts/archwiki_automated_submission.py:195-217 | Requests never go back to an earlier step, and no step is skipped. Nothing runs after the step that failed, and the last request belongs to the stage reached. The run succeeds if and only if it reaches the end. It makes between 1 and 4·`retries` requests. |
| Submission.HandshakeTokenFlow | scripts/archwiki_automated_submission.py:196-211 | Every login carries the bot's credentials and the token returned by the last login-token query. Every edit is a bot edit of the page, follows a successful login, and carries the token returned by the last CSRF-token query. |
| Submission.HandshakeFailure | scripts/archwiki_automated_submission.py:195-217 | A failed run raises the error of its last request, unchanged or wrapped. A successful run ended with a successful edit. |
| Submission.LoginTokenStep | scripts/archwiki_automated_submission.py:196 | Step 1 makes 1 to `retries` queries. The run continues with the token of the last query, or raises that query's error. |
| Submission.LoginStep | scripts/archwiki_automated_submission.py:199 | Step 2 makes 1 to `retries` logins with the same token. The run continues only if the last login succeeded, and otherwise raises its error. |
| Submission.CsrfTokenStep | scripts/archwiki_automated_submission.py:202 | Step 3 makes 1 to `retries` queries. The run continues with the token of the last query, or raises that query's error. |
| Submission.EditStep | scripts/archwiki_automated_submission.py:205-211 | Step 4 makes 1 to `retries` bot edits. The run is submitted if and only if it returns, only after a successful last edit, and otherwise raises that edit's error. |
| Submission.StepFacts | scripts/archwiki_automated_submission.py:164-182 | Each step calls its function between 1 and `retries` times. A returned value is the last call's value, and a raised message is the last call's error, unchanged or wrapped. |
| Submission.LaggingNotTransient | scripts/archwiki_automated_submission.py:149 | The `maxlag` edit message is not classified transient. |
| Submission.MaxlagEditNotRetried | scripts/archwiki_automated_submission.py:148-149 | A `maxlag` answer to the first edit ends the run after that single request, with no sleep, raising the lagging message. |
| Submission.SilentCurlFailureNotTransient | scripts/archwiki_automated_submission.py:64-66 | A curl failure with empty error output raises "Curl command failed: ", which is not retried. |

## Left out

- Running `curl` (`subprocess.run`, exit codes, stderr): a call is what the `Network`
  parameter returns. Only the two messages `run_curl_command` raises are modelled (`Curl.CurlResult`).
- `json.loads`: the network returns an already-decoded response, or "not JSON".
  Only dictionary replies are modelled, and only the keys the client reads.
- JSON `null` and non-string values at the keys the client reads: in the model, `None`
  means an absent key, and every read value is a string or an object. In the script,
  `"query": null` (or `"tokens": null`, `"login": null`, `"edit": null`, `"error": null`)
  makes the next `.get` raise `AttributeError`; `"reason": null` gives "Login failed:
  None"; `"code": null` gives "Edit failed: None - ..." and `"info": null` gives
  "Edit failed: <code> - None"; and a truthy
  non-string token is returned. The MediaWiki API sends strings and objects at these
  keys.
- `log_message` (timestamps, appends to the log file, `print`): file and console output.
  A log write that fails is not modelled: in the script it raises inside a step (where
  the retry wrapper classifies it like any other error) or inside the `finally` block
  (where it replaces the run's own exception). The model assumes every log write
  succeeds. The success log line with `edit.newrevid` is left out with the rest of the
  logging.
- `time.sleep`: delays are recorded as values in the run, not slept.
- Reading the content file, `argparse`, environment variables and `sys.exit`:
  command-line plumbing. The content and the edit summary arrive as values in `Page`;
  the default summary chosen by argument parsing is not modelled.
- The cookie file on disk: it is a boolean, set by every curl call and cleared by the
  `finally` block.
- Python exceptions: modelled as `Result.Err` carrying the message. The exception type
  and the traceback are not modelled.
- `run_curl_command` with `expect_json=False`: no caller in the core uses it.
- Text.Lower: lower-cases ASCII letters only. Python's `str.lower()` also folds non-ASCII
  letters, so a non-ASCII case variant of a keyword is not recognised in the model.
- Submission.Handshake: defined for a budget of at least 1. A budget of 0 would return
  `None` from each step, which `submit_content` never requests. `Retry.Backoff` itself
  covers every budget.
- Delays across the handshake: the run records every delay slept, but the handshake
  lemmas do not relate them to the four steps. Within one step the schedule is given by
  `Retry.BackoffSchedule`.
- The network answers by call number and request. A wiki whose answers depend on
  server state in other ways is represented only through that function.

=== FILE: curl.dfy ===
/** The pure part of `ArchWikiBot.run_curl_command`: the argument vector handed to
    `curl`, built from a method, a cookie flag and an ordered parameter map, and the
    two errors raised when the call fails or its output is not JSON. */
module Curl {
  import opened Wrappers
  import MediaWiki

  const WikiApiUrl := "https://wiki.archlinux.org/api.php"
  const CookiesFile := "/tmp/archwiki_cookies.txt"
  const UserAgent := "ArchWikiBot/1.0 (Linux Bluetooth Troubleshooting Project)"

  type Argv = seq<string>

  /** A Python dict of request parameters, in insertion order. */
  type Params = seq<(string, string)>

  /** `params.get(key)`: the value of the first entry with that key. */
  function Lookup(params: Params, key: string): Option<string> {
    if params == [] then None
    else if params[0].0 == key then Some(params[0].1)
    else Lookup(params[1..], key)
  }

  function Keys(params: Params): seq<string> {
    seq(|params|, i requires 0 <= i < |params| => params[i].0)
  }

  /** No key occurs twice, as in a dict. */
  predicate DistinctKeys(params: Params) {
    forall i, j :: 0 <= i < j < |params| ==> params[i].0 != params[j].0
  }

  /** In a map without repeated keys, each key finds its own value, and a key that is
      not there finds nothing. */
  lemma {:induction false} LookupDistinct(params: Params, key: string)
    requires DistinctKeys(params)
    ensures key !in Keys(params) ==> Lookup(params, key) == None
    ensures forall i :: 0 <= i < |params| && params[i].0 == key ==> Lookup(params, key) == Some(params[i].1)
  {
    if params != [] {
      assert Keys(params) == [params[0].0] + Keys(params[1..]);
      LookupDistinct(params[1..], key);
      forall i | 0 < i < |params| && params[i].0 == key ensures Lookup(params, key) == Some(params[i].1) {
        assert params[1..][i - 1] == params[i];
      }
    }
  }

  lemma LookupAll(params: Params)
    requires DistinctKeys(params)
    ensures forall i :: 0 <= i < |params| ==> Lookup(params, params[i].0) == Some(params[i].1)
    ensures forall k :: k !in Keys(params) ==> Lookup(params, k) == None
  {
    forall k {
      LookupDistinct(params, k);
    }
  }

  /** `params[key] = value`: replaces the value of an existing key in place, or
      appends a new entry at the end. */
  function Put(params: Params, key: string, value: string): (r: Params)
    ensures Lookup(r, key) == Some(value)
    ensures forall k :: k != key ==> Lookup(r, k) == Lookup(params, k)
    ensures key in Keys(params) ==> Keys(r) == Keys(params)
    ensures key !in Keys(params) ==> Keys(r) == Keys(params) + [key]
  {
    if params == [] then [(key, value)]
    else if params[0].0 == key then
      assert Keys(params)[0] == key;
      [(key, value)] + params[1..]
    else
      var rest := Put(params[1..], key, value);
      assert Keys(params) == [params[0].0] + Keys(params[1..]);
      assert Keys([params[0]] + rest) == [params[0].0] + Keys(rest);
      [params[0]] + rest
  }

  /** The flag that carries one parameter: URL-encoded for the page text and the summary. */
  function ParamFlag(key: string): string {
    if key in ["text", "summary"] then "--data-urlencode" else "-d"
  }

  /** The two arguments one parameter contributes. */
  function ParamArgs(key: string, value: string): seq<string> {
    [ParamFlag(key), key + "=" + value]
  }

  /** The arguments of all parameters, in map order. */
  function DataArgs(params: Params): seq<string> {
    if params == [] then [] else ParamArgs(params[0].0, params[0].1) + DataArgs(params[1..])
  }

  /** The cookie-jar arguments: only write it on the very first request, else read and write it. */
  function CookieArgs(initialCookies: bool): seq<string> {
    if initialCookies then ["-c", CookiesFile] else ["-b", CookiesFile, "-c", CookiesFile]
  }

  const RequestHead: seq<string> := ["curl", "-s", "-X"]
  const RequestTail: seq<string> :=
    ["--user-agent", UserAgent, "--connect-timeout", "30", "--max-time", "120"]

  /** The whole command line. */
  function CurlArgv(httpMethod: string, initialCookies: bool, params: Params): Argv {
    RequestHead + [httpMethod, WikiApiUrl] + CookieArgs(initialCookies) + DataArgs(params) + RequestTail
  }

  lemma {:induction false} DataArgsAppend(params: Params, key: string, value: string)
    ensures DataArgs(params + [(key, value)]) == DataArgs(params) + ParamArgs(key, value)
  {
    if params != [] {
      assert (params + [(key, value)])[1..] == params[1..] + [(key, value)];
      DataArgsAppend(params[1..], key, value);
    }
  }

  /** The loop that extends the command line argument by argument. */
  method BuildCurlCommand(params: Params, httpMethod: string, initialCookies: bool) returns (cmd: Argv)
    ensures cmd == CurlArgv(httpMethod, initialCookies, params)
  {
    cmd := ["curl", "-s", "-X", httpMethod, WikiApiUrl];
    if initialCookies {
      cmd := cmd + ["-c", CookiesFile];
    } else {
      cmd := cmd + ["-b", CookiesFile, "-c", CookiesFile];
    }
    ghost var head := cmd;
    for i := 0 to |params|
      invariant cmd == head + DataArgs(params[..i])
    {
      var (key, value) := params[i];
      if key in ["text", "summary"] {
        cmd := cmd + ["--data-urlencode", key + "=" + value];
      } else {
        cmd := cmd + ["-d", key + "=" + value];
      }
      assert params[..i + 1] == params[..i] + [(key, value)];
      DataArgsAppend(params[..i], key, value);
    }
    assert params[..|params|] == params;
    cmd := cmd + ["--user-agent", UserAgent];
    cmd := cmd + ["--connect-timeout", "30", "--max-time", "120"];
  }

  /** Each parameter contributes exactly its flag and its `key=value`, at positions
      `2i` and `2i + 1`, in map order. */
  lemma {:induction false} DataArgsAt(params: Params, i: nat)
    requires i < |params|
    ensures |DataArgs(params)| == 2 * |params|
    ensures DataArgs(params)[2 * i] == ParamFlag(params[i].0)
    ensures DataArgs(params)[2 * i + 1] == params[i].0 + "=" + params[i].1
  {
    if i > 0 {
      DataArgsAt(params[1..], i - 1);
    } else if |params| > 1 {
      DataArgsAt(params[1..], 0);
    }
  }

  lemma {:induction false} DataArgsLength(params: Params)
    ensures |DataArgs(params)| == 2 * |params|
  {
    if params != [] {
      DataArgsLength(params[1..]);
    }
  }

  /** The shape of every command line: `curl -s -X <method> <URL>`, then the cookie
      flags, then two arguments per parameter, then the user agent and the two
      timeouts; 5 + (2 or 4) + 2 * |params| + 6 arguments in all. */
  lemma CurlArgvShape(httpMethod: string, initialCookies: bool, params: Params)
    ensures var argv := CurlArgv(httpMethod, initialCookies, params);
      var c := if initialCookies then 2 else 4;
      && |argv| == 5 + c + 2 * |params| + 6
      && argv[..5] == ["curl", "-s", "-X", httpMethod, WikiApiUrl]
      && argv[5..5 + c] == (if initialCookies then ["-c", CookiesFile] else ["-b", CookiesFile, "-c", CookiesFile])
      && argv[|argv| - 6..] == ["--user-agent", UserAgent, "--connect-timeout", "30", "--max-time", "120"]
      && forall i :: 0 <= i < |params| ==>
           argv[5 + c + 2 * i] == (if params[i].0 == "text" || params[i].0 == "summary" then "--data-urlencode" else "-d")
           && argv[5 + c + 2 * i + 1] == params[i].0 + "=" + params[i].1
  {
    var argv := CurlArgv(httpMethod, initialCookies, params);
    var c := if initialCookies then 2 else 4;
    DataArgsLength(params);
    var head := RequestHead + [httpMethod, WikiApiUrl] + CookieArgs(initialCookies);
    assert argv == head + DataArgs(params) + RequestTail;
    forall i | 0 <= i < |params|
      ensures argv[5 + c + 2 * i] == (if params[i].0 == "text" || params[i].0 == "summary" then "--data-urlencode" else "-d")
      ensures argv[5 + c + 2 * i + 1] == params[i].0 + "=" + params[i].1
    {
      CurlArgvParam(httpMethod, initialCookies, params, i);
    }
  }

  /** Parameter `i` stands at positions `5 + c + 2i` and `5 + c + 2i + 1`, after the
      five leading arguments and the `c` cookie arguments. */
  lemma CurlArgvParam(httpMethod: string, initialCookies: bool, params: Params, i: nat)
    requires i < |params|
    ensures var argv := CurlArgv(httpMethod, initialCookies, params);
      var c := if initialCookies then 2 else 4;
      && |argv| == 5 + c + 2 * |params| + 6
      && argv[5 + c + 2 * i] == ParamFlag(params[i].0)
      && argv[5 + c + 2 * i + 1] == params[i].0 + "=" + params[i].1
  {
    var head := RequestHead + [httpMethod, WikiApiUrl] + CookieArgs(initialCookies);
    DataArgsAt(params, i);
    assert CurlArgv(httpMethod, initialCookies, params) == head + DataArgs(params) + RequestTail;
  }

  /** A parameter in the map is sent: its flag and `key=value` stand side by side in
      the command line. */
  lemma {:induction false} LookupIsSent(params: Params, key: string, value: string, httpMethod: string, initialCookies: bool)
    requires Lookup(params, key) == Some(value)
    ensures var argv := CurlArgv(httpMethod, initialCookies, params);
      exists j :: 0 <= j < |argv| - 1 && argv[j] == ParamFlag(key) && argv[j + 1] == key + "=" + value
  {
    var i := LookupIndex(params, key);
    var argv := CurlArgv(httpMethod, initialCookies, params);
    var c := if initialCookies then 2 else 4;
    CurlArgvParam(httpMethod, initialCookies, params, i);
    var j := 5 + c + 2 * i;
    assert argv[j] == ParamFlag(key) && argv[j + 1] == key + "=" + value;
  }

  lemma {:induction false} LookupIndex(params: Params, key: string) returns (i: nat)
    requires Lookup(params, key).Some?
    ensures i < |params| && params[i] == (key, Lookup(params, key).value)
  {
    if params[0].0 == key {
      i := 0;
    } else {
      var k := LookupIndex(params[1..], key);
      i := k + 1;
    }
  }

  /** What the curl process produced: a non-zero exit with its error output, output
      that is not JSON, or a decoded API response. */
  datatype CurlReply = Failed(stderr: string) | NotJson | Decoded(response: MediaWiki.Response)

  /** The response, or the exception `run_curl_command` raises. */
  function CurlResult(reply: CurlReply): Result<MediaWiki.Response> {
    match reply
    case Failed(stderr) => Err("Curl command failed: " + stderr)
    case NotJson => Err("Failed to decode JSON response from API.")
    case Decoded(response) => Ok(response)
  }

  /** A decoded response passes through unchanged; a failed process raises its error
      output after a fixed prefix; undecodable output raises a fixed message. The two
      errors cannot be confused: no error output turns a curl failure into the decode
      message. */
  lemma CurlResultCases(reply: CurlReply)
    ensures var r := CurlResult(reply);
      && (r.Ok? <==> reply.Decoded?)
      && (r.Ok? ==> r.value == reply.response)
      && (reply.Failed? ==>
            r.Err? && |r.msg| == 21 + |reply.stderr| && r.msg[..21] == "Curl command failed: "
            && r.msg[21..] == reply.stderr)
      && (r.Err? ==> (r.msg == "Failed to decode JSON response from API." <==> reply.NotJson?))
  {
    if reply.Failed? {
      var m := CurlResult(reply).msg;
      assert m[0] == 'C' && "Failed to decode JSON response from API."[0] == 'F';
    }
  }
}

=== FILE: mediawiki.dfy ===
/** The MediaWiki Action API replies the client reads, and how it reads them: the
    token query (`query.tokens.logintoken`, `query.tokens.csrftoken`), `action=login`
    (`login.result`, `login.reason`) and `action=edit` (`edit.result`, `error.code`,
    `error.info`).

    A reply is a decoded JSON object; only the keys the client reads are modelled,
    each optional. A missing object reads as an empty one, as `d.get(key, {})` does. */
module MediaWiki {
  import opened Wrappers

  datatype Tokens = Tokens(logintoken: Option<string>, csrftoken: Option<string>)
  datatype Query = Query(tokens: Option<Tokens>)
  datatype LoginReply = LoginReply(result: Option<string>, reason: Option<string>)
  datatype EditReply = EditReply(result: Option<string>)
  datatype ApiError = ApiError(code: Option<string>, info: Option<string>)

  datatype Response = Response(
    query: Option<Query>,
    login: Option<LoginReply>,
    edit: Option<EditReply>,
    error: Option<ApiError>)

  /** The result marker of a successful login or edit. */
  const Success := "Success"

  datatype TokenType = LoginToken | CsrfToken

  /** `response.get("query", {}).get("tokens", {})`. */
  function TokensIn(r: Response): Tokens {
    match r.query
    case None => Tokens(None, None)
    case Some(q) => q.tokens.GetOr(Tokens(None, None))
  }

  function TokenField(t: Tokens, kind: TokenType): Option<string> {
    match kind
    case LoginToken => t.logintoken
    case CsrfToken => t.csrftoken
  }

  /** The response holds `t` at `query.tokens.logintoken` (or `.csrftoken`). */
  ghost predicate HoldsToken(r: Response, kind: TokenType, t: string) {
    r.query.Some? && r.query.value.tokens.Some? && TokenField(r.query.value.tokens.value, kind) == Some(t)
  }

  function MissingTokenMessage(kind: TokenType): string {
    match kind
    case LoginToken => "Could not retrieve login token."
    case CsrfToken => "Could not retrieve CSRF token."
  }

  /** The token check of `get_login_token` and `get_csrf_token`: the token is returned
      only when present and non-empty; otherwise "Could not retrieve ... token." is raised. */
  function TokenOf(r: Response, kind: TokenType): (res: Result<string>)
    ensures res.Ok? ==> res.value != "" && HoldsToken(r, kind, res.value)
    ensures res.Err? ==> res.msg == MissingTokenMessage(kind) && forall t :: HoldsToken(r, kind, t) ==> t == ""
  {
    match TokenField(TokensIn(r), kind)
    case Some(t) => if t != "" then Ok(t) else Err(MissingTokenMessage(kind))
    case None => Err(MissingTokenMessage(kind))
  }

  /** The check of `login`: success only when `login.result` is exactly "Success";
      a failure carries `login.reason`, or "Unknown reason" when there is none. */
  function LoginOutcome(r: Response): (res: Result<()>)
    ensures res.Ok? <==> r.login.Some? && r.login.value.result == Some(Success)
    ensures res.Err? ==>
      res.msg == "Login failed: " +
        (if r.login.Some? && r.login.value.reason.Some? then r.login.value.reason.value else "Unknown reason")
  {
    var login := r.login.GetOr(LoginReply(None, None));
    if login.result != Some(Success) then
      Err("Login failed: " + login.reason.GetOr("Unknown reason"))
    else
      Ok(())
  }

  /** The user-facing categories of a failed edit. */
  datatype EditFailure =
    | BadToken
    | Lagging
    | SpamDetected
    | AbuseFilter
    | OtherFailure(code: string, info: string)

  /** The `if/elif` chain on the error code. */
  function ClassifyEditError(code: string, info: string): EditFailure {
    if code == "badtoken" then BadToken
    else if code == "maxlag" then Lagging
    else if code == "spamdetected" then SpamDetected
    else if code == "abusefilter" then AbuseFilter
    else OtherFailure(code, info)
  }

  // The fixed messages, sentence by sentence. Short literals keep the letter-by-letter
  // facts about the lagging message (`Submission.LaggingLetters`) cheap to prove.
  const BadTokenMessage := "CSRF token is invalid. " + "Please get a new CSRF token and try again."
  const LaggingSentence := "Wiki is currently lagging. "
  const TryLaterSentence := "Please try again later."
  const LaggingMessage := LaggingSentence + TryLaterSentence
  const SpamMessage := "Content detected as spam. " + "Please review your content."
  const AbuseFilterMessage := "Content blocked by abuse filter. " + "Please review your content."

  /** The message raised for each category. */
  function FailureMessage(f: EditFailure): string {
    match f
    case BadToken => BadTokenMessage
    case Lagging => LaggingMessage
    case SpamDetected => SpamMessage
    case AbuseFilter => AbuseFilterMessage
    case OtherFailure(code, info) => "Edit failed: " + code + " - " + info
  }

  /** The check of `submit_wiki_page`: success only when `edit.result` is exactly
      "Success"; otherwise the error code (default "N/A") and info (default
      "Unknown error") pick the message raised. */
  function EditOutcome(r: Response): (res: Result<()>)
    ensures res.Ok? <==> r.edit.Some? && r.edit.value.result == Some(Success)
    ensures res.Err? ==> res.msg == FailureMessage(ClassifyEditError(ErrorCode(r), ErrorInfo(r)))
  {
    var edit := r.edit.GetOr(EditReply(None));
    if edit.result != Some(Success) then
      Err(FailureMessage(ClassifyEditError(ErrorCode(r), ErrorInfo(r))))
    else
      Ok(())
  }

  /** `response.get("error", {}).get("code", "N/A")`. */
  function ErrorCode(r: Response): string {
    r.error.GetOr(ApiError(None, None)).code.GetOr("N/A")
  }

  /** `response.get("error", {}).get("info", "Unknown error")`. */
  function ErrorInfo(r: Response): string {
    r.error.GetOr(ApiError(None, None)).info.GetOr("Unknown error")
  }

  /** Each of the four named error codes, and only that code, selects its own message;
      every other code (including the default "N/A") gives the generic message. */
  lemma EditFailureCategories(r: Response)
    requires !(r.edit.Some? && r.edit.value.result == Some(Success))
    ensures EditOutcome(r).Err?
    ensures var msg := EditOutcome(r).msg;
      && (msg == BadTokenMessage <==> ErrorCode(r) == "badtoken")
      && (msg == LaggingMessage <==> ErrorCode(r) == "maxlag")
      && (msg == SpamMessage <==> ErrorCode(r) == "spamdetected")
      && (msg == AbuseFilterMessage <==> ErrorCode(r) == "abusefilter")
      && (ErrorCode(r) !in ["badtoken", "maxlag", "spamdetected", "abusefilter"] ==>
            msg == "Edit failed: " + ErrorCode(r) + " - " + ErrorInfo(r))
  {
    FailureMessageIdentifiesCategory(ClassifyEditError(ErrorCode(r), ErrorInfo(r)), BadToken);
    FailureMessageIdentifiesCategory(ClassifyEditError(ErrorCode(r), ErrorInfo(r)), Lagging);
    FailureMessageIdentifiesCategory(ClassifyEditError(ErrorCode(r), ErrorInfo(r)), SpamDetected);
    FailureMessageIdentifiesCategory(ClassifyEditError(ErrorCode(r), ErrorInfo(r)), AbuseFilter);
  }

  /** The first and ninth characters of a failure message, which differ between categories. */
  lemma FailureMessageMarks(f: EditFailure)
    ensures |FailureMessage(f)| > 8
    ensures var m := FailureMessage(f);
      match f
      case BadToken => m[0] == 'C' && m[8] == 'e'
      case Lagging => m[0] == 'W'
      case SpamDetected => m[0] == 'C' && m[8] == 'd'
      case AbuseFilter => m[0] == 'C' && m[8] == 'b'
      case OtherFailure(_, _) => m[0] == 'E'
  {
  }

  /** The message raised for a failed edit tells its category: two failures with the
      same message are the same named category, or both generic. */
  lemma FailureMessageIdentifiesCategory(f: EditFailure, g: EditFailure)
    ensures FailureMessage(f) == FailureMessage(g) ==> f == g || (f.OtherFailure? && g.OtherFailure?)
  {
    FailureMessageMarks(f);
    FailureMessageMarks(g);
  }
}

=== FILE: retry.dfy ===
/** The retry wrapper `ArchWikiBot.exponential_backoff`.

    The wrapped function is modelled as `attempt`, the outcome of its k-th call
    (counting from 0): `Ok(v)` for a return, `Err(msg)` for a raise whose `str(e)` is
    `msg`. Instead of sleeping, the wrapper records each delay; instead of running
    forever it can only make the calls the loop makes. */
module Retry {
  import opened Wrappers
  import opened Text

  /** The words that mark an error as transient (rate limiting, timeout, network). */
  const TransientKeywords: seq<string> := ["maxlag", "timeout", "network"]

  /** The transient test: some keyword occurs in the lower-cased message. */
  predicate IsTransient(msg: string) {
    exists k | k in TransientKeywords :: Contains(Lower(msg), k)
  }

  /** The message of the exception raised when the last allowed attempt fails. */
  function FailedAfter(maxRetries: nat, msg: string): string {
    "Failed after " + DecimalString(maxRetries) + " attempts: " + msg
  }

  /** What the wrapper does: return the wrapped function's value, return `None`
      (only when it never calls), or raise with a message. */
  datatype Outcome<T> = Returned(value: T) | ReturnedNone | Raised(msg: string)

  /** One run of the wrapper: its outcome, how many times it called the wrapped
      function, and the delays it slept, in order. */
  datatype Run<T> = Run(outcome: Outcome<T>, calls: nat, sleeps: seq<nat>)

  function Pow2(k: nat): nat {
    if k == 0 then 1 else 2 * Pow2(k - 1)
  }

  /** The loop from the point where `retryCount` attempts have failed and `delay` is
      the next delay to sleep. */
  function Attempts<T>(attempt: nat -> Result<T>, maxRetries: int, retryCount: nat, delay: nat): Run<T>
    decreases maxRetries - retryCount
  {
    if maxRetries <= retryCount then Run(ReturnedNone, 0, [])
    else match attempt(retryCount)
      case Ok(v) => Run(Returned(v), 1, [])
      case Err(m) =>
        if retryCount + 1 < maxRetries then
          if IsTransient(m) then
            var rest := Attempts(attempt, maxRetries, retryCount + 1, 2 * delay);
            Run(rest.outcome, 1 + rest.calls, [delay] + rest.sleeps)
          else Run(Raised(m), 1, [])
        else Run(Raised(FailedAfter(maxRetries, m)), 1, [])
  }

  /** A whole run of the wrapper: no failure yet, first delay 1 second. */
  function Backoff<T>(attempt: nat -> Result<T>, maxRetries: int): Run<T> {
    Attempts(attempt, maxRetries, 0, 1)
  }

  /** `r` preceded by `calls` calls and the delays `sleeps`. */
  function After<T>(calls: nat, sleeps: seq<nat>, r: Run<T>): Run<T> {
    Run(r.outcome, calls + r.calls, sleeps + r.sleeps)
  }

  /** The loop as the source writes it: a retry counter, a doubling delay, a return on
      the first success, a re-raise of a non-transient failure, and a wrapped raise when
      the last allowed attempt fails. */
  method ExponentialBackoff<T>(attempt: nat -> Result<T>, maxRetries: int) returns (run: Run<T>)
    ensures run == Backoff(attempt, maxRetries)
  {
    var retryCount: nat := 0;
    var delay: nat := 1;
    var sleeps: seq<nat> := [];
    while retryCount < maxRetries
      invariant Backoff(attempt, maxRetries) == After(retryCount, sleeps, Attempts(attempt, maxRetries, retryCount, delay))
      decreases maxRetries - retryCount
    {
      var r := attempt(retryCount);
      ghost var here := Attempts(attempt, maxRetries, retryCount, delay);
      if r.Ok? {
        assert here == Run(Returned(r.value), 1, []);
        return Run(Returned(r.value), retryCount + 1, sleeps);
      }
      retryCount := retryCount + 1;
      if retryCount < maxRetries {
        if IsTransient(r.msg) {
          ghost var rest := Attempts(attempt, maxRetries, retryCount, 2 * delay);
          assert here == Run(rest.outcome, 1 + rest.calls, [delay] + rest.sleeps);
          assert sleeps + ([delay] + rest.sleeps) == (sleeps + [delay]) + rest.sleeps;
          sleeps := sleeps + [delay];
          delay := delay * 2;
          continue;
        } else {
          assert here == Run(Raised(r.msg), 1, []);
          return Run(Raised(r.msg), retryCount, sleeps);
        }
      } else {
        assert here == Run(Raised(FailedAfter(maxRetries, r.msg)), 1, []);
        return Run(Raised(FailedAfter(maxRetries, r.msg)), retryCount, sleeps);
      }
    }
    return Run(ReturnedNone, retryCount, sleeps);
  }

  /** A run from attempt `i` on makes between 1 and `n - i` calls and sleeps once
      fewer, doubling the delay each time. */
  lemma {:induction false} AttemptsCount<T>(a: nat -> Result<T>, n: int, i: nat, d: nat)
    requires i < n
    ensures var r := Attempts(a, n, i, d);
      && 1 <= r.calls <= n - i
      && |r.sleeps| == r.calls - 1
      && forall j :: 0 <= j < |r.sleeps| ==> r.sleeps[j] == d * Pow2(j)
    decreases n - i
  {
    if a(i).Err? && i + 1 < n && IsTransient(a(i).msg) {
      var r := Attempts(a, n, i, d);
      var rest := Attempts(a, n, i + 1, 2 * d);
      AttemptsCount(a, n, i + 1, 2 * d);
      assert r.sleeps == [d] + rest.sleeps;
      forall j | 1 <= j < |r.sleeps| ensures r.sleeps[j] == d * Pow2(j) {
        assert r.sleeps[j] == rest.sleeps[j - 1] == 2 * d * Pow2(j - 1);
      }
    }
  }

  /** Every attempt of a run but its last failed transiently. */
  lemma {:induction false} AttemptsRetriedOnlyTransient<T>(a: nat -> Result<T>, n: int, i: nat, d: nat)
    requires i < n
    ensures var r := Attempts(a, n, i, d);
      forall k :: i <= k < i + r.calls - 1 ==> a(k).Err? && IsTransient(a(k).msg)
    decreases n - i
  {
    if a(i).Err? && i + 1 < n && IsTransient(a(i).msg) {
      AttemptsRetriedOnlyTransient(a, n, i + 1, 2 * d);
    }
  }

  /** The last attempt of a run decides its outcome. */
  lemma {:induction false} AttemptsLast<T>(a: nat -> Result<T>, n: int, i: nat, d: nat)
    requires i < n
    ensures var r := Attempts(a, n, i, d);
      var last := a(i + r.calls - 1);
      && (last.Ok? ==> r.outcome == Returned(last.value))
      && (last.Err? && i + r.calls == n ==> r.outcome == Raised(FailedAfter(n, last.msg)))
      && (last.Err? && i + r.calls < n ==> !IsTransient(last.msg) && r.outcome == Raised(last.msg))
    decreases n - i
  {
    AttemptsCount(a, n, i, d);
    if a(i).Err? && i + 1 < n && IsTransient(a(i).msg) {
      var r := Attempts(a, n, i, d);
      var rest := Attempts(a, n, i + 1, 2 * d);
      AttemptsLast(a, n, i + 1, 2 * d);
      assert i + r.calls - 1 == (i + 1) + rest.calls - 1;
    }
  }

  /** The three facts above, for a run from attempt `i` on. */
  lemma AttemptsShape<T>(a: nat -> Result<T>, n: int, i: nat, d: nat)
    requires i < n
    ensures var r := Attempts(a, n, i, d);
      && 1 <= r.calls <= n - i
      && |r.sleeps| == r.calls - 1
      && (forall j :: 0 <= j < |r.sleeps| ==> r.sleeps[j] == d * Pow2(j))
      && (forall k :: i <= k < i + r.calls - 1 ==> a(k).Err? && IsTransient(a(k).msg))
      && (a(i + r.calls - 1).Ok? ==> r.outcome == Returned(a(i + r.calls - 1).value))
      && (a(i + r.calls - 1).Err? && i + r.calls == n ==>
            r.outcome == Raised(FailedAfter(n, a(i + r.calls - 1).msg)))
      && (a(i + r.calls - 1).Err? && i + r.calls < n ==>
            !IsTransient(a(i + r.calls - 1).msg) && r.outcome == Raised(a(i + r.calls - 1).msg))
  {
    AttemptsCount(a, n, i, d);
    AttemptsRetriedOnlyTransient(a, n, i, d);
    AttemptsLast(a, n, i, d);
  }

  /** Call bound: with `maxRetries <= 0` nothing is called and `None` is returned;
      otherwise the wrapped function is called between 1 and `maxRetries` times and the
      wrapper never returns `None`. */
  lemma BackoffCallBound<T>(a: nat -> Result<T>, n: int)
    ensures n <= 0 ==> Backoff(a, n) == Run(ReturnedNone, 0, [])
    ensures n > 0 ==> 1 <= Backoff(a, n).calls <= n && !Backoff(a, n).outcome.ReturnedNone?
  {
    if n > 0 {
      AttemptsShape(a, n, 0, 1);
    }
  }

  /** Pass-through: a returned value is the value of the last call, and every call
      before it failed, so it is the first successful call's value, unchanged. */
  lemma BackoffReturnsFirstSuccess<T>(a: nat -> Result<T>, n: int)
    ensures var r := Backoff(a, n);
      r.outcome.Returned? ==>
        && a(r.calls - 1) == Ok(r.outcome.value)
        && forall k :: 0 <= k < r.calls - 1 ==> a(k).Err?
  {
    if n > 0 {
      AttemptsShape(a, n, 0, 1);
    }
  }

  /** Backoff schedule: the k-th delay (from 0) is 2^k seconds, there are at most
      `maxRetries - 1` of them, one fewer than the calls, and each one follows a failed
      attempt whose message was classified transient. */
  lemma BackoffSchedule<T>(a: nat -> Result<T>, n: int)
    ensures var r := Backoff(a, n);
      && |r.sleeps| <= (if n > 0 then n - 1 else 0)
      && (n > 0 ==> |r.sleeps| == r.calls - 1)
      && (forall j :: 0 <= j < |r.sleeps| ==> r.sleeps[j] == Pow2(j))
      && (forall j :: 0 <= j < |r.sleeps| ==> a(j).Err? && IsTransient(a(j).msg))
  {
    if n > 0 {
      AttemptsShape(a, n, 0, 1);
    }
  }

  /** A raise comes from the last call's failure: re-raised unchanged when it was not
      transient and not the last allowed attempt, wrapped as "Failed after N attempts"
      when it was the last allowed attempt, transient or not. */
  lemma BackoffRaises<T>(a: nat -> Result<T>, n: int)
    ensures var r := Backoff(a, n);
      r.outcome.Raised? ==>
        && 0 < r.calls <= n
        && a(r.calls - 1).Err?
        && (r.calls == n ==> r.outcome.msg == FailedAfter(n, a(r.calls - 1).msg))
        && (r.calls < n ==> !IsTransient(a(r.calls - 1).msg) && r.outcome.msg == a(r.calls - 1).msg)
  {
    if n > 0 {
      AttemptsShape(a, n, 0, 1);
    }
  }

  /** The run after `k` transient failures is decided by attempt `k` alone. */
  lemma DecidedAt<T>(a: nat -> Result<T>, n: int, k: nat)
    requires k < n
    requires forall j :: 0 <= j < k ==> a(j).Err? && IsTransient(a(j).msg)
    requires a(k).Ok? || !IsTransient(a(k).msg) || k == n - 1
    ensures Backoff(a, n).calls == k + 1
  {
    AttemptsShape(a, n, 0, 1);
    var r := Backoff(a, n);
    if r.calls - 1 < k {
      assert false;
    } else if r.calls - 1 > k {
      assert false;
    }
  }

  /** After `k` transient failures, a success on the next call is returned, after
      `k + 1` calls and the delays 1, 2, ..., 2^(k-1). */
  lemma BackoffRecovers<T>(a: nat -> Result<T>, n: int, k: nat)
    requires k < n
    requires forall j :: 0 <= j < k ==> a(j).Err? && IsTransient(a(j).msg)
    requires a(k).Ok?
    ensures var r := Backoff(a, n);
      && r.outcome == Returned(a(k).value)
      && r.calls == k + 1
      && |r.sleeps| == k && forall j :: 0 <= j < k ==> r.sleeps[j] == Pow2(j)
  {
    DecidedAt(a, n, k);
    AttemptsShape(a, n, 0, 1);
  }

  /** After `k` transient failures, a non-transient failure that is not on the last
      allowed attempt is raised unchanged: no further call and no further delay. */
  lemma BackoffStopsOnPermanentFailure<T>(a: nat -> Result<T>, n: int, k: nat)
    requires k + 1 < n
    requires forall j :: 0 <= j < k ==> a(j).Err? && IsTransient(a(j).msg)
    requires a(k).Err? && !IsTransient(a(k).msg)
    ensures var r := Backoff(a, n);
      && r.outcome == Raised(a(k).msg)
      && r.calls == k + 1
      && |r.sleeps| == k
  {
    DecidedAt(a, n, k);
    AttemptsShape(a, n, 0, 1);
  }

  /** When every allowed attempt fails, transiently until the last, the last message is
      raised wrapped as "Failed after N attempts: ...", after `n` calls and `n - 1`
      delays. */
  lemma BackoffExhausted<T>(a: nat -> Result<T>, n: int)
    requires 0 < n
    requires forall j :: 0 <= j < n - 1 ==> a(j).Err? && IsTransient(a(j).msg)
    requires a(n - 1).Err?
    ensures var r := Backoff(a, n);
      && r.outcome == Raised(FailedAfter(n, a(n - 1).msg))
      && r.calls == n
      && |r.sleeps| == n - 1
  {
    DecidedAt(a, n, n - 1);
    AttemptsShape(a, n, 0, 1);
  }

  lemma {:induction false} LowerIdempotent(s: string)
    ensures Lower(Lower(s)) == Lower(s)
  {
    var l := Lower(s);
    assert forall i :: 0 <= i < |s| ==> Lower(l)[i] == LowerChar(LowerChar(s[i])) == l[i];
  }

  /** The transient test does not depend on letter case. */
  lemma TransientIgnoresCase(msg: string)
    ensures IsTransient(Lower(msg)) == IsTransient(msg)
  {
    LowerIdempotent(msg);
  }

  /** A keyword written in any letter case anywhere in a message makes it transient. */
  lemma KeywordMakesTransient(before: string, word: string, after: string)
    requires Lower(word) in TransientKeywords
    ensures IsTransient(before + word + after)
  {
    LowerAppend(before + word, after);
    LowerAppend(before, word);
    ContainsInMiddle(Lower(before), Lower(word), Lower(after));
  }

  /** A message with no 'x' (needed by "maxlag") and without some letter that both
      "timeout" and "network" need ('t', 'o' or 'e'), in either case, is not transient. */
  lemma LacksKeywordLetters(msg: string, c: char)
    requires c == 't' || c == 'o' || c == 'e'
    requires 'x' !in msg && 'X' !in msg
    requires c !in msg && (c as int - 32) as char !in msg
    ensures !IsTransient(msg)
  {
    forall k | k in TransientKeywords
      ensures !Contains(Lower(msg), k)
    {
      if k == "maxlag" {
        AbsentLetter(msg, k, 'x');
      } else {
        assert c in k;
        AbsentLetter(msg, k, c);
      }
    }
  }
}

=== FILE: submission.dfy ===
/** `ArchWikiBot.submit_content`: the four-step MediaWiki handshake
    (login token, login, CSRF token, edit), each step under the retry wrapper, with the
    cookie jar removed on every way out.

    The wiki is a `Network`: given the number of a curl call in the run (from 0) and
    the request it carries (sent as the command line `CallArgv`), what that call
    produced. Every step makes one curl call per
    attempt, so a run is described by the list of calls it made, in order. */
module Submission {
  import opened Wrappers
  import opened Retry
  import opened Curl
  import opened MediaWiki

  /** `submit_content` calls `exponential_backoff` with its default budget. The run is
      defined, and its properties proved, for any budget `retries` of at least 1. */
  const MaxRetries := 5

  /** The bot's credentials. */
  datatype Bot = Bot(username: string, password: string)

  /** The page to write: title, body and edit summary. */
  datatype Page = Page(title: string, content: string, summary: string)

  /** The four API requests the client makes. */
  datatype ApiCall =
    | LoginTokenQuery
    | LoginCall(lgname: string, lgpassword: string, lgtoken: string)
    | CsrfTokenQuery
    | EditCall(title: string, text: string, summary: string, token: string, bot: bool)

  /** The parameters of an edit: a fixed set of keys, and `bot=1` added last for a
      bot edit. */
  function EditParams(title: string, content: string, summary: string, csrfToken: string, isBotEdit: bool): (p: Params)
    ensures Keys(p) == ["action", "title", "text", "summary", "token", "format"] + (if isBotEdit then ["bot"] else [])
    ensures Lookup(p, "action") == Some("edit") && Lookup(p, "format") == Some("json")
    ensures Lookup(p, "title") == Some(title) && Lookup(p, "text") == Some(content)
    ensures Lookup(p, "summary") == Some(summary) && Lookup(p, "token") == Some(csrfToken)
    ensures Lookup(p, "bot") == if isBotEdit then Some("1") else None
    ensures DistinctKeys(p)
  {
    EditFieldsLookup(title, content, summary, csrfToken);
    var params := EditFields(title, content, summary, csrfToken);
    var p := if isBotEdit then Put(params, "bot", "1") else params;
    assert forall i :: 0 <= i < |p| ==> p[i].0 == Keys(p)[i];
    p
  }

  /** The fields every edit sends, in order. */
  function EditFields(title: string, content: string, summary: string, csrfToken: string): (p: Params)
    ensures Keys(p) == ["action", "title", "text", "summary", "token", "format"]
    ensures DistinctKeys(p)
  {
    var p := [
      ("action", "edit"),
      ("title", title),
      ("text", content),
      ("summary", summary),
      ("token", csrfToken),
      ("format", "json")
    ];
    assert Keys(p) == ["action", "title", "text", "summary", "token", "format"];
    p
  }

  lemma EditFieldsLookup(title: string, content: string, summary: string, csrfToken: string)
    ensures var p := EditFields(title, content, summary, csrfToken);
      && Lookup(p, "action") == Some("edit") && Lookup(p, "format") == Some("json")
      && Lookup(p, "title") == Some(title) && Lookup(p, "text") == Some(content)
      && Lookup(p, "summary") == Some(summary) && Lookup(p, "token") == Some(csrfToken)
      && Lookup(p, "bot") == None
  {
    var p := EditFields(title, content, summary, csrfToken);
    LookupAll(p);
    assert p[0].0 == "action" && p[5].0 == "format";
    assert p[1].0 == "title" && p[2].0 == "text";
    assert p[3].0 == "summary" && p[4].0 == "token";
  }

  /** The edit request sends the page title as a plain field. */
  lemma EditTitleSent(title: string, content: string, summary: string, csrfToken: string, isBotEdit: bool)
    ensures var argv := CallArgv(EditCall(title, content, summary, csrfToken, isBotEdit));
      exists j :: 0 <= j < |argv| - 1 && argv[j] == "-d" && argv[j + 1] == "title=" + title
  {
    var c := EditCall(title, content, summary, csrfToken, isBotEdit);
    assert CallParams(c) == EditParams(title, content, summary, csrfToken, isBotEdit);
    FieldSent(c, "title", title, "-d");
  }

  /** The edit request sends the page text URL-encoded. */
  lemma EditTextSent(title: string, content: string, summary: string, csrfToken: string, isBotEdit: bool)
    ensures var argv := CallArgv(EditCall(title, content, summary, csrfToken, isBotEdit));
      exists j :: 0 <= j < |argv| - 1 && argv[j] == "--data-urlencode" && argv[j + 1] == "text=" + content
  {
    var c := EditCall(title, content, summary, csrfToken, isBotEdit);
    assert CallParams(c) == EditParams(title, content, summary, csrfToken, isBotEdit);
    FieldSent(c, "text", content, "--data-urlencode");
  }

  /** The edit request sends the summary URL-encoded. */
  lemma EditSummarySent(title: string, content: string, summary: string, csrfToken: string, isBotEdit: bool)
    ensures var argv := CallArgv(EditCall(title, content, summary, csrfToken, isBotEdit));
      exists j :: 0 <= j < |argv| - 1 && argv[j] == "--data-urlencode" && argv[j + 1] == "summary=" + summary
  {
    var c := EditCall(title, content, summary, csrfToken, isBotEdit);
    assert CallParams(c) == EditParams(title, content, summary, csrfToken, isBotEdit);
    FieldSent(c, "summary", summary, "--data-urlencode");
  }

  /** The edit request sends the CSRF token as a plain field. */
  lemma EditTokenSent(title: string, content: string, summary: string, csrfToken: string, isBotEdit: bool)
    ensures var argv := CallArgv(EditCall(title, content, summary, csrfToken, isBotEdit));
      exists j :: 0 <= j < |argv| - 1 && argv[j] == "-d" && argv[j + 1] == "token=" + csrfToken
  {
    var c := EditCall(title, content, summary, csrfToken, isBotEdit);
    assert CallParams(c) == EditParams(title, content, summary, csrfToken, isBotEdit);
    FieldSent(c, "token", csrfToken, "-d");
  }

  /** A bot edit sends `-d bot=1`. */
  lemma BotFlagSent(title: string, content: string, summary: string, csrfToken: string)
    ensures var argv := CallArgv(EditCall(title, content, summary, csrfToken, true));
      exists j :: 0 <= j < |argv| - 1 && argv[j] == "-d" && argv[j + 1] == "bot=1"
  {
    var c := EditCall(title, content, summary, csrfToken, true);
    assert CallParams(c) == EditParams(title, content, summary, csrfToken, true);
    FieldSent(c, "bot", "1", "-d");
  }

  /** A field of a request's parameter map is on its command line, after its flag. */
  lemma FieldSent(c: ApiCall, key: string, value: string, flag: string)
    requires Lookup(CallParams(c), key) == Some(value) && ParamFlag(key) == flag
    ensures var argv := CallArgv(c);
      exists j :: 0 <= j < |argv| - 1 && argv[j] == flag && argv[j + 1] == key + "=" + value
  {
    LookupIsSent(CallParams(c), key, value, "POST", c.LoginTokenQuery?);
    assert CallArgv(c) == CurlArgv("POST", c.LoginTokenQuery?, CallParams(c));
  }

  /** The login request sends the bot's name, its password and the login token, each
      as a plain field. */
  lemma LoginRequestSent(name: string, password: string, token: string)
    ensures var argv := CallArgv(LoginCall(name, password, token));
      && (exists j :: 0 <= j < |argv| - 1 && argv[j] == "-d" && argv[j + 1] == "action=login")
      && (exists j :: 0 <= j < |argv| - 1 && argv[j] == "-d" && argv[j + 1] == "lgname=" + name)
      && (exists j :: 0 <= j < |argv| - 1 && argv[j] == "-d" && argv[j + 1] == "lgpassword=" + password)
      && (exists j :: 0 <= j < |argv| - 1 && argv[j] == "-d" && argv[j + 1] == "lgtoken=" + token)
  {
    var c := LoginCall(name, password, token);
    var p := CallParams(c);
    var argv := CallArgv(c);
    assert argv == CurlArgv("POST", false, p);
    CurlArgvParam("POST", false, p, 0);
    CurlArgvParam("POST", false, p, 1);
    CurlArgvParam("POST", false, p, 2);
    CurlArgvParam("POST", false, p, 3);
    assert argv[9] == "-d" && argv[10] == "action=login";
    assert argv[11] == "-d" && argv[12] == "lgname=" + name;
    assert argv[13] == "-d" && argv[14] == "lgpassword=" + password;
    assert argv[15] == "-d" && argv[16] == "lgtoken=" + token;
  }

  /** The login-token query is the first request of a run: it only writes the cookie
      jar (`-c`). The CSRF-token query reads and writes it (`-b ... -c ...`). */
  lemma TokenQueryCookies(kind: TokenType)
    ensures var argv := CallArgv(TokenQuery(kind));
      && |argv| >= 9
      && argv[..5] == ["curl", "-s", "-X", "POST", WikiApiUrl]
      && (kind == LoginToken ==> argv[5..7] == ["-c", CookiesFile])
      && (kind == CsrfToken ==> argv[5..9] == ["-b", CookiesFile, "-c", CookiesFile])
  {
    var first := kind == LoginToken;
    var p := CallParams(TokenQuery(kind));
    var head := RequestHead + ["POST", WikiApiUrl] + CookieArgs(first);
    // Not needed for validity; naming the split of the command line keeps the proof cheap.
    assert CallArgv(TokenQuery(kind)) == head + (DataArgs(p) + RequestTail);
  }

  /** A token query asks for its kind of token: `-d type=login` or `-d type=csrf`. */
  lemma TokenTypeSent(kind: TokenType)
    ensures var argv := CallArgv(TokenQuery(kind));
      exists j :: 0 <= j < |argv| - 1 && argv[j] == "-d"
        && argv[j + 1] == "type=" + (if kind == LoginToken then "login" else "csrf")
  {
    var first := kind == LoginToken;
    var t := if first then "login" else "csrf";
    var p := CallParams(TokenQuery(kind));
    assert p == TokenQueryParams(t);
    assert p[2] == ("type", t);
    CurlArgvParam("POST", first, p, 2);
    var j := 5 + (if first then 2 else 4) + 4;
    assert CallArgv(TokenQuery(kind))[j] == "-d";
  }

  /** The parameter map each request sends: a dict with distinct keys, whose action
      is `query` for the token queries, `login` or `edit` otherwise, always with
      `format=json`. */
  function CallParams(c: ApiCall): (p: Params)
    ensures DistinctKeys(p)
    ensures Lookup(p, "format") == Some("json")
    ensures Lookup(p, "action") == Some(match c
                                         case LoginTokenQuery => "query"
                                         case CsrfTokenQuery => "query"
                                         case LoginCall(_, _, _) => "login"
                                         case EditCall(_, _, _, _, _) => "edit")
  {
    match c
    case LoginTokenQuery => TokenQueryParams("login")
    case LoginCall(name, password, token) => LoginParams(name, password, token)
    case CsrfTokenQuery => TokenQueryParams("csrf")
    case EditCall(title, text, summary, token, bot) =>
      EditParams(title, text, summary, token, bot)
  }

  /** The parameters of a token query for the given token type: exactly `action=query`,
      `meta=tokens`, `type=<token type>` and `format=json`, in that order. */
  function TokenQueryParams(tokenType: string): (p: Params)
    ensures Keys(p) == ["action", "meta", "type", "format"]
    ensures DistinctKeys(p)
    ensures Lookup(p, "action") == Some("query") && Lookup(p, "meta") == Some("tokens")
    ensures Lookup(p, "type") == Some(tokenType) && Lookup(p, "format") == Some("json")
  {
    var p := [("action", "query"), ("meta", "tokens"), ("type", tokenType), ("format", "json")];
    assert Keys(p) == ["action", "meta", "type", "format"];
    LookupAll(p);
    assert p[0].0 == "action" && p[1].0 == "meta" && p[2].0 == "type" && p[3].0 == "format";
    p
  }

  /** The parameters of a login: exactly `action=login`, the bot's name and password,
      the login token and `format=json`, in that order. */
  function LoginParams(name: string, password: string, token: string): (p: Params)
    ensures Keys(p) == ["action", "lgname", "lgpassword", "lgtoken", "format"]
    ensures DistinctKeys(p)
    ensures Lookup(p, "action") == Some("login") && Lookup(p, "format") == Some("json")
    ensures Lookup(p, "lgname") == Some(name) && Lookup(p, "lgpassword") == Some(password)
    ensures Lookup(p, "lgtoken") == Some(token)
  {
    var p := [("action", "login"), ("lgname", name), ("lgpassword", password), ("lgtoken", token), ("format", "json")];
    assert Keys(p) == ["action", "lgname", "lgpassword", "lgtoken", "format"];
    LookupAll(p);
    assert p[0].0 == "action" && p[1].0 == "lgname" && p[2].0 == "lgpassword";
    assert p[3].0 == "lgtoken" && p[4].0 == "format";
    p
  }

  /** The command line of a request: a POST that creates the cookie jar for the first
      request and reuses it for the others. */
  function CallArgv(c: ApiCall): Argv {
    CurlArgv("POST", c.LoginTokenQuery?, CallParams(c))
  }

  /** What the wiki answers to the curl call numbered `n` carrying a given request. */
  type Network = (nat, ApiCall) -> CurlReply

  /** The response to the call numbered `n`, or the error `run_curl_command` raises. */
  function Reply(net: Network, n: nat, c: ApiCall): Result<Response> {
    CurlResult(net(n, c))
  }

  /** The request that asks for a token of the given kind. */
  function TokenQuery(kind: TokenType): ApiCall {
    match kind
    case LoginToken => LoginTokenQuery
    case CsrfToken => CsrfTokenQuery
  }

  /** `get_login_token` / `get_csrf_token` as the call numbered `n`: the token, or the
      error raised. */
  function TokenResult(net: Network, n: nat, kind: TokenType): Result<string> {
    match Reply(net, n, TokenQuery(kind))
    case Err(m) => Err(m)
    case Ok(r) => TokenOf(r, kind)
  }

  /** `login` as the call numbered `n`. */
  function LoginResult(net: Network, n: nat, c: ApiCall): Result<()> {
    match Reply(net, n, c)
    case Err(m) => Err(m)
    case Ok(r) => LoginOutcome(r)
  }

  /** `submit_wiki_page` as the call numbered `n`. */
  function EditResult(net: Network, n: nat, c: ApiCall): Result<()> {
    match Reply(net, n, c)
    case Err(m) => Err(m)
    case Ok(r) => EditOutcome(r)
  }

  // One step as the retry wrapper sees it: attempt `k` is call number `first + k`.

  function TokenAttempt(net: Network, first: nat, kind: TokenType): nat -> Result<string> {
    (k: nat) => TokenResult(net, first + k, kind)
  }

  function LoginAttempt(net: Network, first: nat, c: ApiCall): nat -> Result<()> {
    (k: nat) => LoginResult(net, first + k, c)
  }

  function EditAttempt(net: Network, first: nat, c: ApiCall): nat -> Result<()> {
    (k: nat) => EditResult(net, first + k, c)
  }

  /** The states of the handshake. */
  datatype Stage = NoToken | HaveLoginToken | LoggedIn | HaveCsrfToken | Submitted

  function Rank(s: Stage): nat {
    match s
    case NoToken => 0
    case HaveLoginToken => 1
    case LoggedIn => 2
    case HaveCsrfToken => 3
    case Submitted => 4
  }

  /** The state a request is made from. */
  function StageOf(c: ApiCall): Stage {
    match c
    case LoginTokenQuery => NoToken
    case LoginCall(_, _, _) => HaveLoginToken
    case CsrfTokenQuery => LoggedIn
    case EditCall(_, _, _, _, _) => HaveCsrfToken
  }

  /** What one run did: the requests it made, the delays it slept, the last state it
      reached, and whether it returned or raised. */
  datatype Transcript = Transcript(calls: seq<ApiCall>, sleeps: seq<nat>, reached: Stage, result: Result<()>)

  function Repeat<T>(x: T, n: nat): seq<T> {
    seq(n, _ => x)
  }

  /** The run of `submit_content` with budget `retries` for each step: each step under
      the retry wrapper; a step that raises ends the run, and later steps never start. */
  function Handshake(bot: Bot, page: Page, net: Network, retries: nat): Transcript
    requires 1 <= retries
  {
    var a := TokenAttempt(net, 0, LoginToken);
    var r := Backoff(a, retries);
    var calls := Repeat(LoginTokenQuery, r.calls);
    BackoffCallBound(a, retries);
    match r.outcome
    case Raised(m) => Transcript(calls, r.sleeps, NoToken, Err(m))
    case Returned(loginToken) => FromLoginToken(bot, page, net, retries, calls, r.sleeps, loginToken)
  }

  /** The rest of the run once `calls` have been made and a login token obtained. */
  function FromLoginToken(bot: Bot, page: Page, net: Network, retries: nat, calls: seq<ApiCall>, sleeps: seq<nat>,
                          loginToken: string): Transcript
    requires 1 <= retries
  {
    var login := LoginCall(bot.username, bot.password, loginToken);
    var a := LoginAttempt(net, |calls|, login);
    var r := Backoff(a, retries);
    var calls' := calls + Repeat(login, r.calls);
    BackoffCallBound(a, retries);
    match r.outcome
    case Raised(m) => Transcript(calls', sleeps + r.sleeps, HaveLoginToken, Err(m))
    case Returned(_) => FromLoggedIn(page, net, retries, calls', sleeps + r.sleeps)
  }

  /** The rest of the run once logged in. */
  function FromLoggedIn(page: Page, net: Network, retries: nat, calls: seq<ApiCall>, sleeps: seq<nat>): Transcript
    requires 1 <= retries
  {
    var a := TokenAttempt(net, |calls|, CsrfToken);
    var r := Backoff(a, retries);
    var calls' := calls + Repeat(CsrfTokenQuery, r.calls);
    BackoffCallBound(a, retries);
    match r.outcome
    case Raised(m) => Transcript(calls', sleeps + r.sleeps, LoggedIn, Err(m))
    case Returned(csrfToken) => FromCsrfToken(page, net, retries, calls', sleeps + r.sleeps, csrfToken)
  }

  /** The rest of the run once a CSRF token is obtained: the edit, as a bot edit. */
  function FromCsrfToken(page: Page, net: Network, retries: nat, calls: seq<ApiCall>, sleeps: seq<nat>,
                         csrfToken: string): Transcript
    requires 1 <= retries
  {
    var edit := EditCall(page.title, page.content, page.summary, csrfToken, true);
    var a := EditAttempt(net, |calls|, edit);
    var r := Backoff(a, retries);
    var calls' := calls + Repeat(edit, r.calls);
    BackoffCallBound(a, retries);
    match r.outcome
    case Raised(m) => Transcript(calls', sleeps + r.sleeps, HaveCsrfToken, Err(m))
    case Returned(_) => Transcript(calls', sleeps + r.sleeps, Submitted, Ok(()))
  }

  /** `submit_content` step by step. `jarBefore` says whether a cookie jar is left over
      from an earlier run; the jar exists once a curl call has run (every call passes
      `-c`); the `finally` block removes it whatever happened. */
  method SubmitContent(bot: Bot, page: Page, net: Network, jarBefore: bool)
    returns (t: Transcript, cookieJarExists: bool)
    ensures t == Handshake(bot, page, net, MaxRetries)
    ensures !cookieJarExists
  {
    cookieJarExists := jarBefore;
    var calls: seq<ApiCall> := [];
    var sleeps: seq<nat> := [];
    var reached := NoToken;
    var result: Result<()> := Ok(());

    // Step 1: get a login token.
    var r1 := ExponentialBackoff(TokenAttempt(net, 0, LoginToken), MaxRetries);
    BackoffCallBound(TokenAttempt(net, 0, LoginToken), MaxRetries);
    calls, sleeps := Repeat(LoginTokenQuery, r1.calls), r1.sleeps;
    cookieJarExists := true;
    if r1.outcome.Raised? {
      result := Err(r1.outcome.msg);
    } else {
      ghost var rest := FromLoginToken(bot, page, net, MaxRetries, calls, sleeps, r1.outcome.value);
      assert Handshake(bot, page, net, MaxRetries) == rest;
      // Step 2: log in with that token.
      reached := HaveLoginToken;
      var login := LoginCall(bot.username, bot.password, r1.outcome.value);
      var r2 := ExponentialBackoff(LoginAttempt(net, |calls|, login), MaxRetries);
      BackoffCallBound(LoginAttempt(net, |calls|, login), MaxRetries);
      calls, sleeps := calls + Repeat(login, r2.calls), sleeps + r2.sleeps;
      if r2.outcome.Raised? {
        result := Err(r2.outcome.msg);
        assert rest == Transcript(calls, sleeps, reached, result);
      } else {
        rest := FromLoggedIn(page, net, MaxRetries, calls, sleeps);
        assert Handshake(bot, page, net, MaxRetries) == rest;
        // Step 3: get a CSRF token.
        reached := LoggedIn;
        var r3 := ExponentialBackoff(TokenAttempt(net, |calls|, CsrfToken), MaxRetries);
        BackoffCallBound(TokenAttempt(net, |calls|, CsrfToken), MaxRetries);
        calls, sleeps := calls + Repeat(CsrfTokenQuery, r3.calls), sleeps + r3.sleeps;
        if r3.outcome.Raised? {
          result := Err(r3.outcome.msg);
          assert rest == Transcript(calls, sleeps, reached, result);
        } else {
          rest := FromCsrfToken(page, net, MaxRetries, calls, sleeps, r3.outcome.value);
          assert Handshake(bot, page, net, MaxRetries) == rest;
          // Step 4: submit the page as a bot edit.
          reached := HaveCsrfToken;
          var edit := EditCall(page.title, page.content, page.summary, r3.outcome.value, true);
          var r4 := ExponentialBackoff(EditAttempt(net, |calls|, edit), MaxRetries);
          BackoffCallBound(EditAttempt(net, |calls|, edit), MaxRetries);
          calls, sleeps := calls + Repeat(edit, r4.calls), sleeps + r4.sleeps;
          if r4.outcome.Raised? {
            result := Err(r4.outcome.msg);
          } else {
            reached := Submitted;
          }
          assert rest == Transcript(calls, sleeps, reached, result);
        }
      }
    }

    // finally: remove the cookie jar.
    if cookieJarExists {
      cookieJarExists := false;
    }
    t := Transcript(calls, sleeps, reached, result);
  }

  /** The error a request's check raised, if it failed: the curl or JSON error, the
      missing token, the failed login or the failed edit. */
  function CallFailure(net: Network, n: nat, c: ApiCall): Option<string> {
    match c
    case LoginTokenQuery => ErrorOf(TokenResult(net, n, LoginToken))
    case LoginCall(_, _, _) => ErrorOf(LoginResult(net, n, c))
    case CsrfTokenQuery => ErrorOf(TokenResult(net, n, CsrfToken))
    case EditCall(_, _, _, _, _) => ErrorOf(EditResult(net, n, c))
  }

  function ErrorOf<T>(r: Result<T>): Option<string> {
    match r
    case Ok(_) => None
    case Err(m) => Some(m)
  }

  /** A step that fails raises its last call's error unchanged, or wrapped as
      "Failed after N attempts: ...", N being the budget. */
  predicate RaisedFrom(retries: nat, msg: string, cause: string) {
    msg == cause || msg == FailedAfter(retries, cause)
  }

  /** What one step does under the retry wrapper: between 1 and `retries` calls; a
      returned value is what the last call produced; a raised message is the last
      call's failure, as it was or wrapped as "Failed after N attempts". */
  lemma StepFacts<T>(a: nat -> Result<T>, retries: nat)
    requires 1 <= retries
    ensures var r := Backoff(a, retries);
      var last := a(r.calls - 1);
      && 1 <= r.calls <= retries
      && !r.outcome.ReturnedNone?
      && (r.outcome.Returned? ==> last == Ok(r.outcome.value))
      && (r.outcome.Raised? ==>
            last.Err? && RaisedFrom(retries, r.outcome.msg, last.msg))
  {
    BackoffCallBound(a, retries);
    BackoffReturnsFirstSuccess(a, retries);
    BackoffRaises(a, retries);
  }

  /** The stage of each call of a run made of `n1` login-token queries, `n2` logins,
      `n3` CSRF-token queries and `n4` edits, in that order. */
  function BlockStage(n1: nat, n2: nat, n3: nat, i: nat): Stage {
    if i < n1 then NoToken
    else if i < n1 + n2 then HaveLoginToken
    else if i < n1 + n2 + n3 then LoggedIn
    else HaveCsrfToken
  }

  /** The shape of a run `t` of `submit_content`: a block of `n1` login-token queries,
      then `n2` logins with the bot's credentials and the token the last query
      returned, then `n3` CSRF-token queries, then `n4` bot edits of the page with the
      token the last of those returned. Each block has at most `retries` calls; a
      block is present exactly when the run got past the step before it, which happens
      only when that step's last call succeeded. The run succeeds exactly when it
      reaches the end, and a run that fails raises the last call's error, as it was or
      wrapped. */
  ghost predicate Shaped(bot: Bot, page: Page, net: Network, retries: nat, t: Transcript,
                         n1: nat, n2: nat, n3: nat, n4: nat, loginToken: string, csrfToken: string)
  {
    var login := LoginCall(bot.username, bot.password, loginToken);
    var edit := EditCall(page.title, page.content, page.summary, csrfToken, true);
    && t.calls == Repeat(LoginTokenQuery, n1) + Repeat(login, n2) + Repeat(CsrfTokenQuery, n3) + Repeat(edit, n4)
    && 1 <= n1 <= retries && n2 <= retries && n3 <= retries && n4 <= retries
    && (n2 > 0 <==> Rank(t.reached) >= 1)
    && (n3 > 0 <==> Rank(t.reached) >= 2)
    && (n4 > 0 <==> Rank(t.reached) >= 3)
    && (n2 > 0 ==> TokenResult(net, n1 - 1, LoginToken) == Ok(loginToken))
    && (n3 > 0 ==> LoginResult(net, n1 + n2 - 1, login).Ok?)
    && (n4 > 0 ==> TokenResult(net, n1 + n2 + n3 - 1, CsrfToken) == Ok(csrfToken))
    && (t.reached == Submitted ==> EditResult(net, n1 + n2 + n3 + n4 - 1, edit).Ok?)
    && (t.result.Ok? <==> t.reached == Submitted)
    && (t.result.Err? ==> StageFailed(net, retries, t.reached, n1, n2, n3, n4, login, edit, t.result.msg))
  }

  /** The last call of the step the run stopped at failed, and the run raised that
      failure, as it was or wrapped. */
  ghost predicate StageFailed(net: Network, retries: nat, reached: Stage, n1: nat, n2: nat, n3: nat, n4: nat,
                              login: ApiCall, edit: ApiCall, msg: string)
    requires 1 <= n1
  {
    match reached
    case NoToken =>
      var r := TokenResult(net, n1 - 1, LoginToken); r.Err? && RaisedFrom(retries, msg, r.msg)
    case HaveLoginToken =>
      var r := LoginResult(net, n1 + n2 - 1, login); r.Err? && RaisedFrom(retries, msg, r.msg)
    case LoggedIn =>
      var r := TokenResult(net, n1 + n2 + n3 - 1, CsrfToken); r.Err? && RaisedFrom(retries, msg, r.msg)
    case HaveCsrfToken =>
      var r := EditResult(net, n1 + n2 + n3 + n4 - 1, edit); r.Err? && RaisedFrom(retries, msg, r.msg)
    case Submitted => false
  }

  /** Every run of `submit_content` has that shape. */
  lemma HandshakeBlocks(bot: Bot, page: Page, net: Network, retries: nat)
    returns (n1: nat, n2: nat, n3: nat, n4: nat, loginToken: string, csrfToken: string)
    requires 1 <= retries
    ensures Shaped(bot, page, net, retries, Handshake(bot, page, net, retries), n1, n2, n3, n4, loginToken, csrfToken)
  {
    var t := Handshake(bot, page, net, retries);
    var sleeps;
    n1, sleeps, loginToken := LoginTokenStep(bot, page, net, retries);
    var last := TokenResult(net, n1 - 1, LoginToken);
    if last.Err? {
      n2, n3, n4, loginToken, csrfToken := 0, 0, 0, "", "";
      StoppedAtLoginToken(bot, page, net, retries, t, n1);
      return;
    }
    n2, n3, n4, csrfToken := FromLoginTokenBlocks(bot, page, net, retries, t, n1, sleeps, loginToken);
  }

  /** The login-token step: between 1 and `retries` queries; the run goes on with the
      token the last of them returned, or raises its error. */
  lemma LoginTokenStep(bot: Bot, page: Page, net: Network, retries: nat) returns (n1: nat, sleeps: seq<nat>, loginToken: string)
    requires 1 <= retries
    ensures 1 <= n1 <= retries
    ensures var t := Handshake(bot, page, net, retries);
      var last := TokenResult(net, n1 - 1, LoginToken);
      var calls := Repeat(LoginTokenQuery, n1);
      && (last.Ok? ==> last == Ok(loginToken) && t == FromLoginToken(bot, page, net, retries, calls, sleeps, loginToken))
      && (last.Err? ==> t.calls == calls && t.reached == NoToken && t.result.Err? && RaisedFrom(retries, t.result.msg, last.msg))
  {
    var a := TokenAttempt(net, 0, LoginToken);
    StepFacts(a, retries);
    var r := Backoff(a, retries);
    n1, sleeps := r.calls, r.sleeps;
    assert a(n1 - 1) == TokenResult(net, n1 - 1, LoginToken);
    loginToken := if r.outcome.Returned? then r.outcome.value else "";
  }

  /** The login step after `calls`: between 1 and `retries` logins with the bot's
      credentials and the token; the run goes on when the last of them succeeded, or
      raises its error. */
  lemma LoginStep(bot: Bot, page: Page, net: Network, retries: nat, calls: seq<ApiCall>, sleeps: seq<nat>, loginToken: string,
                  first: nat)
    returns (n2: nat, sleeps2: seq<nat>)
    requires 1 <= retries && first == |calls|
    ensures 1 <= n2 <= retries
    ensures var t := FromLoginToken(bot, page, net, retries, calls, sleeps, loginToken);
      var login := LoginCall(bot.username, bot.password, loginToken);
      var last := LoginResult(net, first + n2 - 1, login);
      var calls2 := calls + Repeat(login, n2);
      && (last.Ok? ==> t == FromLoggedIn(page, net, retries, calls2, sleeps2))
      && (last.Err? ==> t.calls == calls2 && t.reached == HaveLoginToken && t.result.Err? && RaisedFrom(retries, t.result.msg, last.msg))
  {
    var login := LoginCall(bot.username, bot.password, loginToken);
    var a := LoginAttempt(net, |calls|, login);
    StepFacts(a, retries);
    var r := Backoff(a, retries);
    n2, sleeps2 := r.calls, sleeps + r.sleeps;
    assert a(n2 - 1) == LoginResult(net, first + n2 - 1, login);
  }

  /** The CSRF-token step after `calls`: between 1 and `retries` queries; the run
      goes on with the token the last of them returned, or raises its error. */
  lemma CsrfTokenStep(page: Page, net: Network, retries: nat, calls: seq<ApiCall>, sleeps: seq<nat>, first: nat)
    returns (n3: nat, sleeps3: seq<nat>, csrfToken: string)
    requires 1 <= retries && first == |calls|
    ensures 1 <= n3 <= retries
    ensures var t := FromLoggedIn(page, net, retries, calls, sleeps);
      var last := TokenResult(net, first + n3 - 1, CsrfToken);
      var calls3 := calls + Repeat(CsrfTokenQuery, n3);
      && (last.Ok? ==> last == Ok(csrfToken) && t == FromCsrfToken(page, net, retries, calls3, sleeps3, csrfToken))
      && (last.Err? ==> t.calls == calls3 && t.reached == LoggedIn && t.result.Err? && RaisedFrom(retries, t.result.msg, last.msg))
  {
    var a := TokenAttempt(net, |calls|, CsrfToken);
    StepFacts(a, retries);
    var r := Backoff(a, retries);
    n3, sleeps3 := r.calls, sleeps + r.sleeps;
    assert a(n3 - 1) == TokenResult(net, first + n3 - 1, CsrfToken);
    csrfToken := if r.outcome.Returned? then r.outcome.value else "";
  }

  lemma FromLoginTokenBlocks(bot: Bot, page: Page, net: Network, retries: nat, t: Transcript, n1: nat, sleeps: seq<nat>,
                             loginToken: string)
    returns (n2: nat, n3: nat, n4: nat, csrfToken: string)
    requires 1 <= n1 <= retries
    requires TokenResult(net, n1 - 1, LoginToken) == Ok(loginToken)
    requires t == FromLoginToken(bot, page, net, retries, Repeat(LoginTokenQuery, n1), sleeps, loginToken)
    ensures Shaped(bot, page, net, retries, t, n1, n2, n3, n4, loginToken, csrfToken)
  {
    var calls := Repeat(LoginTokenQuery, n1);
    var login := LoginCall(bot.username, bot.password, loginToken);
    var sleeps2;
    n2, sleeps2 := LoginStep(bot, page, net, retries, calls, sleeps, loginToken, n1);
    var last := LoginResult(net, n1 + n2 - 1, login);
    if last.Err? {
      n3, n4, csrfToken := 0, 0, "";
      StoppedAtLogin(bot, page, net, retries, t, n1, n2, loginToken);
      return;
    }
    n3, n4, csrfToken := FromLoggedInBlocks(bot, page, net, retries, t, n1, n2, loginToken, sleeps2);
  }

  lemma FromLoggedInBlocks(bot: Bot, page: Page, net: Network, retries: nat, t: Transcript, n1: nat, n2: nat, loginToken: string,
                           sleeps: seq<nat>)
    returns (n3: nat, n4: nat, csrfToken: string)
    requires 1 <= n1 <= retries && 1 <= n2 <= retries
    requires TokenResult(net, n1 - 1, LoginToken) == Ok(loginToken)
    requires LoginResult(net, n1 + n2 - 1, LoginCall(bot.username, bot.password, loginToken)).Ok?
    requires t == FromLoggedIn(page, net, retries,
                               Repeat(LoginTokenQuery, n1) + Repeat(LoginCall(bot.username, bot.password, loginToken), n2),
                               sleeps)
    ensures Shaped(bot, page, net, retries, t, n1, n2, n3, n4, loginToken, csrfToken)
  {
    var calls := Repeat(LoginTokenQuery, n1) + Repeat(LoginCall(bot.username, bot.password, loginToken), n2);
    var sleeps3;
    n3, sleeps3, csrfToken := CsrfTokenStep(page, net, retries, calls, sleeps, n1 + n2);
    var last := TokenResult(net, n1 + n2 + n3 - 1, CsrfToken);
    if last.Err? {
      n4, csrfToken := 0, "";
      StoppedAtCsrfToken(bot, page, net, retries, t, n1, n2, n3, loginToken);
      return;
    }
    n4 := FromCsrfTokenBlocks(bot, page, net, retries, t, n1, n2, n3, loginToken, csrfToken, sleeps3);
  }

  lemma StoppedAtLoginToken(bot: Bot, page: Page, net: Network, retries: nat, t: Transcript, n1: nat)
    requires 1 <= n1 <= retries
    requires TokenResult(net, n1 - 1, LoginToken).Err?
    requires t.calls == Repeat(LoginTokenQuery, n1) && t.reached == NoToken
    requires t.result.Err? && RaisedFrom(retries, t.result.msg, TokenResult(net, n1 - 1, LoginToken).msg)
    ensures Shaped(bot, page, net, retries, t, n1, 0, 0, 0, "", "")
  {
  }

  lemma StoppedAtLogin(bot: Bot, page: Page, net: Network, retries: nat, t: Transcript, n1: nat, n2: nat, loginToken: string)
    requires 1 <= n1 <= retries && 1 <= n2 <= retries
    requires TokenResult(net, n1 - 1, LoginToken) == Ok(loginToken)
    requires var login := LoginCall(bot.username, bot.password, loginToken);
      && LoginResult(net, n1 + n2 - 1, login).Err?
      && t.calls == Repeat(LoginTokenQuery, n1) + Repeat(login, n2) && t.reached == HaveLoginToken
      && t.result.Err? && RaisedFrom(retries, t.result.msg, LoginResult(net, n1 + n2 - 1, login).msg)
    ensures Shaped(bot, page, net, retries, t, n1, n2, 0, 0, loginToken, "")
  {
  }

  lemma StoppedAtCsrfToken(bot: Bot, page: Page, net: Network, retries: nat, t: Transcript, n1: nat, n2: nat, n3: nat,
                           loginToken: string)
    requires 1 <= n1 <= retries && 1 <= n2 <= retries && 1 <= n3 <= retries
    requires TokenResult(net, n1 - 1, LoginToken) == Ok(loginToken)
    requires LoginResult(net, n1 + n2 - 1, LoginCall(bot.username, bot.password, loginToken)).Ok?
    requires TokenResult(net, n1 + n2 + n3 - 1, CsrfToken).Err?
    requires t.calls == Repeat(LoginTokenQuery, n1) + Repeat(LoginCall(bot.username, bot.password, loginToken), n2)
                        + Repeat(CsrfTokenQuery, n3)
    requires t.reached == LoggedIn && t.result.Err?
    requires RaisedFrom(retries, t.result.msg, TokenResult(net, n1 + n2 + n3 - 1, CsrfToken).msg)
    ensures Shaped(bot, page, net, retries, t, n1, n2, n3, 0, loginToken, "")
  {
  }

  /** The edit step after `calls`: between 1 and `retries` edit requests; the run
      is submitted exactly when the last of them succeeded, and otherwise raises its
      error, as it was or wrapped. */
  lemma EditStep(page: Page, net: Network, retries: nat, calls: seq<ApiCall>, sleeps: seq<nat>, csrfToken: string,
                 first: nat)
    returns (n4: nat)
    requires 1 <= retries && first == |calls|
    ensures 1 <= n4 <= retries
    ensures var t := FromCsrfToken(page, net, retries, calls, sleeps, csrfToken);
      var edit := EditCall(page.title, page.content, page.summary, csrfToken, true);
      var last := EditResult(net, first + n4 - 1, edit);
      && t.calls == calls + Repeat(edit, n4)
      && (t.reached == Submitted || t.reached == HaveCsrfToken)
      && (t.result.Ok? <==> t.reached == Submitted)
      && (t.reached == Submitted ==> last.Ok?)
      && (t.result.Err? ==> last.Err? && RaisedFrom(retries, t.result.msg, last.msg))
  {
    var edit := EditCall(page.title, page.content, page.summary, csrfToken, true);
    var a := EditAttempt(net, |calls|, edit);
    StepFacts(a, retries);
    n4 := Backoff(a, retries).calls;
    assert a(n4 - 1) == EditResult(net, first + n4 - 1, edit);
  }

  lemma FromCsrfTokenBlocks(bot: Bot, page: Page, net: Network, retries: nat, t: Transcript, n1: nat, n2: nat, n3: nat,
                            loginToken: string, csrfToken: string, sleeps: seq<nat>)
    returns (n4: nat)
    requires 1 <= n1 <= retries && 1 <= n2 <= retries && 1 <= n3 <= retries
    requires TokenResult(net, n1 - 1, LoginToken) == Ok(loginToken)
    requires LoginResult(net, n1 + n2 - 1, LoginCall(bot.username, bot.password, loginToken)).Ok?
    requires TokenResult(net, n1 + n2 + n3 - 1, CsrfToken) == Ok(csrfToken)
    requires t == FromCsrfToken(page, net, retries,
                                Repeat(LoginTokenQuery, n1) + Repeat(LoginCall(bot.username, bot.password, loginToken), n2)
                                + Repeat(CsrfTokenQuery, n3),
                                sleeps, csrfToken)
    ensures Shaped(bot, page, net, retries, t, n1, n2, n3, n4, loginToken, csrfToken)
  {
    var calls := Repeat(LoginTokenQuery, n1) + Repeat(LoginCall(bot.username, bot.password, loginToken), n2)
                 + Repeat(CsrfTokenQuery, n3);
    assert |calls| == n1 + n2 + n3;
    n4 := EditStep(page, net, retries, calls, sleeps, csrfToken, n1 + n2 + n3);
  }

  /** Which request stands at index `i` of a run with the shape above. */
  lemma BlockAt(n1: nat, n2: nat, n3: nat, n4: nat, login: ApiCall, edit: ApiCall, i: nat)
    requires i < n1 + n2 + n3 + n4
    ensures var calls := Repeat(LoginTokenQuery, n1) + Repeat(login, n2) + Repeat(CsrfTokenQuery, n3) + Repeat(edit, n4);
      calls[i] == (if i < n1 then LoginTokenQuery else if i < n1 + n2 then login
                   else if i < n1 + n2 + n3 then CsrfTokenQuery else edit)
  {
  }

  /** Step order and abort: the requests go login-token query, login, CSRF-token query,
      edit, never back to an earlier step; no step is skipped; no request belongs to a
      step after the one the run stopped at, and the last request belongs to that step.
      The run succeeds exactly when it reaches the end. At most `retries` requests
      are made per step. */
  lemma HandshakeOrder(bot: Bot, page: Page, net: Network, retries: nat)
    requires 1 <= retries
    ensures var t := Handshake(bot, page, net, retries);
      && 1 <= |t.calls| <= 4 * retries
      && (forall i, j :: 0 <= i < j < |t.calls| ==> Rank(StageOf(t.calls[i])) <= Rank(StageOf(t.calls[j])))
      && (forall i :: 0 <= i < |t.calls| ==> Rank(StageOf(t.calls[i])) <= Rank(t.reached))
      && (forall s :: Rank(s) <= Rank(t.reached) && s != Submitted ==>
            exists i :: 0 <= i < |t.calls| && StageOf(t.calls[i]) == s)
      && StageOf(t.calls[|t.calls| - 1]) == (if t.reached == Submitted then HaveCsrfToken else t.reached)
      && (t.result.Ok? <==> t.reached == Submitted)
  {
    var n1, n2, n3, n4, loginToken, csrfToken := HandshakeBlocks(bot, page, net, retries);
    ShapedOrder(bot, page, net, retries, Handshake(bot, page, net, retries), n1, n2, n3, n4, loginToken, csrfToken);
  }

  lemma ShapedOrder(bot: Bot, page: Page, net: Network, retries: nat, t: Transcript,
                    n1: nat, n2: nat, n3: nat, n4: nat, loginToken: string, csrfToken: string)
    requires Shaped(bot, page, net, retries, t, n1, n2, n3, n4, loginToken, csrfToken)
    ensures 1 <= |t.calls| <= 4 * retries
    ensures forall i, j :: 0 <= i < j < |t.calls| ==> Rank(StageOf(t.calls[i])) <= Rank(StageOf(t.calls[j]))
    ensures forall i :: 0 <= i < |t.calls| ==> Rank(StageOf(t.calls[i])) <= Rank(t.reached)
    ensures forall s :: Rank(s) <= Rank(t.reached) && s != Submitted ==>
              exists i :: 0 <= i < |t.calls| && StageOf(t.calls[i]) == s
    ensures StageOf(t.calls[|t.calls| - 1]) == (if t.reached == Submitted then HaveCsrfToken else t.reached)
    ensures t.result.Ok? <==> t.reached == Submitted
  {
    var login := LoginCall(bot.username, bot.password, loginToken);
    var edit := EditCall(page.title, page.content, page.summary, csrfToken, true);
    forall i | 0 <= i < |t.calls|
      ensures StageOf(t.calls[i]) == BlockStage(n1, n2, n3, i)
    {
      BlockAt(n1, n2, n3, n4, login, edit, i);
    }
    forall s | Rank(s) <= Rank(t.reached) && s != Submitted
      ensures exists i :: 0 <= i < |t.calls| && StageOf(t.calls[i]) == s
    {
      var i := if s == NoToken then 0 else if s == HaveLoginToken then n1
               else if s == LoggedIn then n1 + n2 else n1 + n2 + n3;
      assert StageOf(t.calls[i]) == s;
    }
  }

  /** Token flow: every login carries the bot's credentials and the token returned by
      the last login-token query, which succeeded; every edit is a bot edit of the
      page's title, content and summary, made after a login that succeeded, and carries
      the token returned by the last CSRF-token query, which succeeded. */
  lemma HandshakeTokenFlow(bot: Bot, page: Page, net: Network, retries: nat)
    requires 1 <= retries
    ensures var t := Handshake(bot, page, net, retries);
      && (forall i :: 0 <= i < |t.calls| && t.calls[i].LoginCall? ==>
            && t.calls[i].lgname == bot.username && t.calls[i].lgpassword == bot.password
            && exists j :: 0 <= j < i && t.calls[j] == LoginTokenQuery
                 && TokenResult(net, j, LoginToken) == Ok(t.calls[i].lgtoken)
                 && forall k :: j < k < |t.calls| ==> t.calls[k] != LoginTokenQuery)
      && (forall i :: 0 <= i < |t.calls| && t.calls[i].EditCall? ==>
            && t.calls[i] == EditCall(page.title, page.content, page.summary, t.calls[i].token, true)
            && (exists j :: 0 <= j < i && t.calls[j].LoginCall? && LoginResult(net, j, t.calls[j]).Ok?)
            && exists j :: 0 <= j < i && t.calls[j] == CsrfTokenQuery
                 && TokenResult(net, j, CsrfToken) == Ok(t.calls[i].token)
                 && forall k :: j < k < |t.calls| ==> t.calls[k] != CsrfTokenQuery)
  {
    var n1, n2, n3, n4, loginToken, csrfToken := HandshakeBlocks(bot, page, net, retries);
    ShapedTokenFlow(bot, page, net, retries, Handshake(bot, page, net, retries), n1, n2, n3, n4, loginToken, csrfToken);
  }

  lemma ShapedTokenFlow(bot: Bot, page: Page, net: Network, retries: nat, t: Transcript,
                        n1: nat, n2: nat, n3: nat, n4: nat, loginToken: string, csrfToken: string)
    requires Shaped(bot, page, net, retries, t, n1, n2, n3, n4, loginToken, csrfToken)
    ensures forall i :: 0 <= i < |t.calls| && t.calls[i].LoginCall? ==>
              && t.calls[i].lgname == bot.username && t.calls[i].lgpassword == bot.password
              && exists j :: 0 <= j < i && t.calls[j] == LoginTokenQuery
                   && TokenResult(net, j, LoginToken) == Ok(t.calls[i].lgtoken)
                   && forall k :: j < k < |t.calls| ==> t.calls[k] != LoginTokenQuery
    ensures forall i :: 0 <= i < |t.calls| && t.calls[i].EditCall? ==>
              && t.calls[i] == EditCall(page.title, page.content, page.summary, t.calls[i].token, true)
              && (exists j :: 0 <= j < i && t.calls[j].LoginCall? && LoginResult(net, j, t.calls[j]).Ok?)
              && exists j :: 0 <= j < i && t.calls[j] == CsrfTokenQuery
                   && TokenResult(net, j, CsrfToken) == Ok(t.calls[i].token)
                   && forall k :: j < k < |t.calls| ==> t.calls[k] != CsrfTokenQuery
  {
    var login := LoginCall(bot.username, bot.password, loginToken);
    var edit := EditCall(page.title, page.content, page.summary, csrfToken, true);
    forall i | 0 <= i < |t.calls|
      ensures t.calls[i] == (if i < n1 then LoginTokenQuery else if i < n1 + n2 then login
                             else if i < n1 + n2 + n3 then CsrfTokenQuery else edit)
    {
      BlockAt(n1, n2, n3, n4, login, edit, i);
    }
    forall i | 0 <= i < |t.calls| && t.calls[i].LoginCall?
      ensures exists j :: 0 <= j < i && t.calls[j] == LoginTokenQuery
                 && TokenResult(net, j, LoginToken) == Ok(t.calls[i].lgtoken)
                 && forall k :: j < k < |t.calls| ==> t.calls[k] != LoginTokenQuery
    {
      assert t.calls[n1 - 1] == LoginTokenQuery;
    }
    forall i | 0 <= i < |t.calls| && t.calls[i].EditCall?
      ensures exists j :: 0 <= j < i && t.calls[j].LoginCall? && LoginResult(net, j, t.calls[j]).Ok?
      ensures exists j :: 0 <= j < i && t.calls[j] == CsrfTokenQuery
                 && TokenResult(net, j, CsrfToken) == Ok(t.calls[i].token)
                 && forall k :: j < k < |t.calls| ==> t.calls[k] != CsrfTokenQuery
    {
      assert t.calls[n1 + n2 - 1] == login;
      assert t.calls[n1 + n2 + n3 - 1] == CsrfTokenQuery;
    }
  }

  /** Failure origin: a run that fails raises the error of its last request, unchanged
      or wrapped as "Failed after N attempts: ...", and a run that succeeds ended with an
      edit that succeeded. */
  lemma HandshakeFailure(bot: Bot, page: Page, net: Network, retries: nat)
    requires 1 <= retries
    ensures EndsWithLastCall(net, retries, Handshake(bot, page, net, retries))
  {
    var n1, n2, n3, n4, loginToken, csrfToken := HandshakeBlocks(bot, page, net, retries);
    ShapedFailure(bot, page, net, retries, Handshake(bot, page, net, retries), n1, n2, n3, n4, loginToken, csrfToken);
  }

  /** The run made at least one request; if it failed, it raised the error of its last
      request, as it was or wrapped; if it succeeded, its last request was an edit that
      succeeded. */
  ghost predicate EndsWithLastCall(net: Network, retries: nat, t: Transcript) {
    && 1 <= |t.calls|
    && var last := |t.calls| - 1;
      && (t.result.Err? ==>
            CallFailure(net, last, t.calls[last]).Some?
            && RaisedFrom(retries, t.result.msg, CallFailure(net, last, t.calls[last]).value))
      && (t.result.Ok? ==> t.calls[last].EditCall? && EditResult(net, last, t.calls[last]).Ok?)
  }

  lemma ShapedFailure(bot: Bot, page: Page, net: Network, retries: nat, t: Transcript,
                      n1: nat, n2: nat, n3: nat, n4: nat, loginToken: string, csrfToken: string)
    requires Shaped(bot, page, net, retries, t, n1, n2, n3, n4, loginToken, csrfToken)
    ensures EndsWithLastCall(net, retries, t)
  {
  }

  /** The message raised for edit error `maxlag` contains none of the transient
      keywords: it has no 'x' (for "maxlag") and no 'o' (for "timeout" and
      "network"), in either case. */
  lemma LaggingNotTransient()
    ensures !IsTransient(LaggingMessage)
  {
    LaggingLetters();
    LacksKeywordLetters(LaggingMessage, 'o');
  }

  lemma LaggingLetters()
    ensures 'x' !in LaggingMessage && 'X' !in LaggingMessage && 'o' !in LaggingMessage && 'O' !in LaggingMessage
  {
    // Checking the two sentences separately is far cheaper than the whole message at once.
    SentenceLetters(LaggingSentence);
    SentenceLetters(TryLaterSentence);
  }

  lemma SentenceLetters(s: string)
    requires s == LaggingSentence || s == TryLaterSentence
    ensures 'x' !in s && 'X' !in s && 'o' !in s && 'O' !in s
  {
    forall i | 0 <= i < |s| ensures s[i] !in "xXoO" {
    }
  }

  /** When the wiki answers the first edit with error code `maxlag`, the edit is not
      retried: the run stops after that one request, without sleeping, and raises
      "Wiki is currently lagging. Please try again later." */
  lemma MaxlagEditNotRetried(page: Page, net: Network, retries: nat, calls: seq<ApiCall>, sleeps: seq<nat>,
                             csrfToken: string, r: Response)
    requires var edit := EditCall(page.title, page.content, page.summary, csrfToken, true);
      net(|calls|, edit) == Decoded(r)
    requires !(r.edit.Some? && r.edit.value.result == Some(Success)) && ErrorCode(r) == "maxlag"
    requires 2 <= retries
    ensures var edit := EditCall(page.title, page.content, page.summary, csrfToken, true);
      FromCsrfToken(page, net, retries, calls, sleeps, csrfToken)
        == Transcript(calls + [edit], sleeps, HaveCsrfToken, Err(LaggingMessage))
  {
    var edit := EditCall(page.title, page.content, page.summary, csrfToken, true);
    var a := EditAttempt(net, |calls|, edit);
    EditFailureCategories(r);
    assert Reply(net, |calls|, edit) == Ok(r);
    assert a(0) == EditResult(net, |calls|, edit) == Err(LaggingMessage);
    LaggingNotTransient();
    BackoffStopsOnPermanentFailure(a, retries, 0);
    assert Repeat(edit, 1) == [edit];
  }

  /** A curl failure with empty error output (what `curl -s` prints) raises
      "Curl command failed: ", which has no 'x' (for "maxlag") and no 't' (for "timeout"
      and "network"): it is not retried. */
  lemma SilentCurlFailureNotTransient()
    ensures CurlResult(Failed("")).Err? && !IsTransient(CurlResult(Failed("")).msg)
  {
    var m := CurlResult(Failed("")).msg;
    assert m == "Curl command failed: ";
    forall i | 0 <= i < |m| ensures m[i] !in "xXtT" {
    }
    LacksKeywordLetters(m, 't');
  }
}

=== FILE: text.dfy ===
/** The string operations the retry wrapper relies on: lower-casing (`str.lower()`),
    substring search (Python's `needle in hay`) and decimal rendering of an integer
    (what an f-string does to `max_retries`). */
module Text {

  /** Lower-cases an ASCII capital; every other character is unchanged. */
  function LowerChar(c: char): char {
    if 'A' <= c <= 'Z' then (c as int + 32) as char else c
  }

  /** `s.lower()`, character by character. */
  function Lower(s: string): string {
    seq(|s|, i requires 0 <= i < |s| => LowerChar(s[i]))
  }

  lemma LowerAppend(a: string, b: string)
    ensures Lower(a + b) == Lower(a) + Lower(b)
  {
  }

  /** `needle` occurs in `hay` starting at index `i`. */
  predicate OccursAt(hay: string, needle: string, i: nat) {
    i + |needle| <= |hay| && hay[i..i + |needle|] == needle
  }

  /** Python's `needle in hay` on strings: `needle` occurs somewhere in `hay` (the
      empty needle occurs everywhere). */
  predicate Contains(hay: string, needle: string) {
    exists i | 0 <= i <= |hay| - |needle| :: OccursAt(hay, needle, i)
  }

  /** A word placed between two strings occurs in the result. */
  lemma ContainsInMiddle(a: string, w: string, b: string)
    ensures Contains(a + w + b, w)
  {
    var s := a + w + b;
    assert s[|a|..|a| + |w|] == w;
    assert OccursAt(s, w, |a|);
  }

  /** A letter that the needle needs and that appears in neither case in `s` rules the
      needle out of `Lower(s)`. */
  lemma AbsentLetter(s: string, needle: string, c: char)
    requires c in needle && 'a' <= c <= 'z'
    requires c !in s && (c as int - 32) as char !in s
    ensures !Contains(Lower(s), needle)
  {
  }

  function DigitChar(d: nat): char
    requires d < 10
  {
    "0123456789"[d]
  }

  /** The value of a decimal digit character. */
  function DigitValue(c: char): nat
    requires '0' <= c <= '9'
  {
    c as int - '0' as int
  }

  /** The number a string of decimal digits denotes, most significant digit first: an
      independent reading of the digits, used to state what `DecimalString` renders. */
  function DecimalValue(s: string): nat
    requires forall i :: 0 <= i < |s| ==> '0' <= s[i] <= '9'
  {
    if s == [] then 0 else 10 * DecimalValue(s[..|s| - 1]) + DigitValue(s[|s| - 1])
  }

  /** Decimal rendering of a natural number, most significant digit first, without
      leading zeros: `str(n)` in Python. The digits read back as `n`. */
  function DecimalString(n: nat): (s: string)
    ensures 1 <= |s|
    ensures forall i :: 0 <= i < |s| ==> '0' <= s[i] <= '9'
    ensures n > 0 ==> s[0] != '0'
    ensures DecimalValue(s) == n
  {
    if n < 10 then [DigitChar(n)]
    else
      var high := DecimalString(n / 10);
      var s := high + [DigitChar(n % 10)];
      assert s[..|s| - 1] == high;
      s
  }
}

=== FILE: wrappers.dfy ===
/** Option and Result, the two failure-carrying datatypes the model uses in place of
    Python's `None` defaults and raised exceptions. */
module Wrappers {

  datatype Option<+T> = None | Some(value: T) {
    /** The value, or `default` when absent: Python's `d.get(key, default)`. */
    function GetOr(default: T): T {
      match this
      case Some(v) => v
      case None => default
    }
  }

  /** The outcome of an operation that may raise: `Err` carries the message, which is
      what `str(e)` gives for the exception the source raises. */
  datatype Result<+T> = Ok(value: T) | Err(msg: string)
}
